=== FILE: README.md ===
# JDD Platform page logic in Dafny

JDD Platform is a Next.js web application for a tennis club. Players challenge each other, the
site lists tournaments, and it shows Elo and ATP standings, a calendar, player profiles and a
moderation dashboard. Nearly all of its logic runs inside the page components, between a
Supabase query and the rendered markup. The code has no rating engine and no match state
machine; Elo ratings and ATP points are only read and displayed.

This project models those in-page derivations as pure Dafny functions over immutable records.
The backend rows are passed in as sequences, in the order the backend returns them. The
project proves what the pages promise about them:

- **standings** (`Rankings`): Elo ranks are list positions. ATP ranks come from a stable re-sort
  of a shallow copy, so they are a permutation of 1..n ordered by points, with ties broken by
  Elo order. The module also covers the headline figures, the podium icons and the rank-change
  arrow.
- **calendar** (`CalendarDates`, `Calendar`): the 42-cell month grid is built from real
  Gregorian dates, and each column is proved to be that date's weekday. Tournament and match
  events are merged in time order, then bucketed per day, truncated per cell and shown in the
  side panel. Each event's status has a badge colour.
- **navigation** (`Navigation`): the prefix-based active-item test, and the mobile sheet's
  open state.
- **matches** (`Matches`, `NewMatch`): the opponent and score pair seen from the signed-in
  user's side, and the outcome label and colour. It covers who may answer a challenge and the
  status tabs. It also covers the challenge form, the record it inserts, and the player search.
- **player figures** (`PlayerStats`, `ProfilePage`, `Dashboard`): display defaults, the integer
  win-rate percentage, the rank position, achievements, ratios and the recent-match list.
- **profile editor** (`ProfileEdit`): load defaults, field edits, and the update payload,
  including the display-name fallback.
- **tournaments list** (`Tournaments`): status labels and colours, the status filter,
  participant counts and the register link.
- **moderation dashboard** (`Admin`): the access check, the status each moderation action
  writes, the eight headline counts and the two review queues.

Shared modules:

- `Wrappers`: nullable values and JavaScript's `||` defaults.
- `Seqs`: filter, take, sum and max.
- `StableSort`: a stable sort on sequences, with a proof that its result is unique. Any
  stable sort therefore agrees with it, including `Array.prototype.sort`, which ECMAScript
  requires to be stable.
- `Numeric`: `Math.round` of a rational, as `floor((2·n + d) / (2·d))`.
- `Palette`: badge colours.

## Model

| member | source | states |
|---|---|---|
| Rankings.WinRate | app/rankings/page.tsx:75 | no matches played gives 0; otherwise the rate times the matches played equals 100 times the matches won |
| Rankings.WinRateBounds | app/rankings/page.tsx:75 | with 0 ≤ won ≤ played the rate lies between 0 and 100 |
| Rankings.Standings | app/rankings/page.tsx:72-86 | one row per profile, in Elo order; rank_elo is position + 1; previous ranks are absent; every rank_atp is in 1..n |
| Rankings.AtpRankIsSortedPosition | app/rankings/page.tsx:81-84 | the player at position p of the stable ATP-descending sort gets rank_atp = p + 1 |
| Rankings.AtpRanksCoverAll | app/rankings/page.tsx:81-84 | every rank 1..n is given to some player |
| Rankings.AtpRanksDistinct | app/rankings/page.tsx:81-84 | no two players share an ATP rank |
| Rankings.AtpRankOrder | app/rankings/page.tsx:81-84 | a better ATP rank holds exactly when the player has more points, or as many and comes earlier in Elo order |
| Rankings.AtpRankCountsPrecedingPlayers | app/rankings/page.tsx:81-84 | rank_atp is 1 + the number of players with more points, or with as many points listed earlier |
| Rankings.Stats | app/rankings/page.tsx:89-104 | player count; average Elo rounded to the nearest integer (0 for no players); highest Elo attained by some player and bounding all; total matches is the sum; tournament count or 0 |
| Rankings.TotalMatchesBoundsEachPlayer | app/rankings/page.tsx:93 | with non-negative counters, no player's matches exceed the total |
| Rankings.PodiumIcon | app/rankings/page.tsx:112-123 | an icon exactly for ranks 1 to 3, and the crown exactly for rank 1 |
| Rankings.PodiumIconsDistinct | app/rankings/page.tsx:112-123 | different ranks never share an icon; in a tab, the icons sit on the first three rows |
| Rankings.RankChange | app/rankings/page.tsx:125-135 | no arrow for a missing or zero previous rank; otherwise up iff the rank improved and down iff it worsened |
| Rankings.RankChangeMirror | app/rankings/page.tsx:125-135 | swapping the two ranks turns up into down; unchanged iff the ranks are equal |
| Rankings.PlayersByRanking | app/rankings/page.tsx:137-145 | the tab is a permutation of the players, ordered by the chosen key, best first |
| Rankings.EloTabKeepsStandingsOrder | app/rankings/page.tsx:137-145 | the Elo tab shows the standings unchanged, so position + 1 equals rank_elo |
| Rankings.AtpTabMatchesAtpRank | app/rankings/page.tsx:137-145 | on the ATP tab, position + 1 equals the stored rank_atp |
| Rankings.StandingsShowNoTrend | app/rankings/page.tsx:236 | previous ranks are never fetched, so every row shows the unchanged marker |
| StableSort.SortByStable | app/rankings/page.tsx:138-144 | rows with equal keys keep their input order |
| StableSort.StableSortUnique | app/rankings/page.tsx:81 | two stable sorts of the same keys give the same order, so the model agrees with the engine's sort |
| CalendarDates.DaysInMonth | app/calendar/page.tsx:110-111 | 28 to 31 days; 29 exactly for February of a Gregorian leap year |
| CalendarDates.PrevNextInverse | app/calendar/page.tsx:117-131 | stepping back a month and then forward (or forward then back) returns to the same month |
| CalendarDates.NextDayNumber | app/calendar/page.tsx:117-131 | the day after a valid date has the next day number, across month and year ends |
| CalendarDates.NextDayWeekday | app/calendar/page.tsx:112 | the weekday advances by one, modulo 7, from each day to the next |
| CalendarDates.WeekdayExamples | app/calendar/page.tsx:112 | 1 January 2000 is a Saturday and 29 February 2024 a Thursday |
| Calendar.MonthGrid | app/calendar/page.tsx:106-134 | 42 cells: the previous month's trailing days, one per weekday before the first; then every day of the month; then the next month's leading days |
| Calendar.GridIsConsecutive | app/calendar/page.tsx:114-131 | every cell is a valid date, each cell is the day after the previous one, and a cell is marked current exactly when it is in the shown month |
| Calendar.GridColumnsMatchWeekdays | app/calendar/page.tsx:112-120 | the cell at index k falls on weekday k mod 7 |
| Calendar.TournamentEventOf | app/calendar/page.tsx:73-83 | a tournament event keeps id, name, start date, location and status; the description defaults to ""; participants is the count or 0 |
| Calendar.FullNameText | app/calendar/page.tsx:89 | "first last", with a null part printed as "null" and a missing player as "undefined undefined" |
| Calendar.MatchEventOf | app/calendar/page.tsx:85-94 | a match event has the two players' names as its title, "Match 1v1", "En ligne" and the creation time |
| Calendar.MergedEvents | app/calendar/page.tsx:96-98 | a permutation of tournament events followed by match events, in ascending time order |
| Calendar.TournamentsFirstOnTies | app/calendar/page.tsx:96-98 | a match listed before a tournament is strictly earlier, so at equal times tournaments come first |
| Calendar.EventsForDate | app/calendar/page.tsx:136-145 | exactly the events on that calendar day, with their multiplicities |
| Calendar.EventsForDateKeepsListOrder | app/calendar/page.tsx:136-145 | selecting a day distributes over concatenation, so the day's events keep their list order |
| Calendar.EventsForDateSorted | app/calendar/page.tsx:136-145 | a day's events stay in time order |
| Calendar.CellEventsOf | app/calendar/page.tsx:278-292 | the first min(2, n) events, and "+k autres" only when n > 2 |
| Calendar.CellAccountsForEveryEvent | app/calendar/page.tsx:278-292 | the shown events plus k add up to the day's events |
| Calendar.SidePanel | app/calendar/page.tsx:314-349 | the selected day's events, or the first five events; the placeholder is decided on the untruncated list |
| Calendar.PlaceholderIffEmptyPanel | app/calendar/page.tsx:344-349 | the placeholder appears exactly when the panel lists nothing |
| Calendar.StatusColor | app/calendar/page.tsx:159-183 | for each event type, each known status gets its colour and every other status is grey |
| Navigation.RootActiveOnlyAtRoot | components/mobile-navigation.tsx:30 | "Accueil" is active only on "/" |
| Navigation.OtherItemsActiveOnPrefix | components/mobile-navigation.tsx:81 | any other item is active exactly when its href is a prefix of the path |
| Navigation.PrefixIgnoresSegments | components/mobile-navigation.tsx:30 | the test does not respect path segments: "/profiles" highlights "Profil" |
| Navigation.Highlights | components/mobile-navigation.tsx:79-81 | one flag per item, true exactly for the active ones |
| Navigation.AtMostOneActive | components/mobile-navigation.tsx:11-17 | no path highlights two items |
| Navigation.UnlistedPathsHighlightNothing | components/mobile-navigation.tsx:11-17 | "/calendar" and "/admin" highlight no item |
| Navigation.SheetStep | components/mobile-navigation.tsx:59-111 | the sheet takes the state it is asked for; following any link closes it |
| Navigation.SheetFollowsLastEvent | components/mobile-navigation.tsx:59-111 | after a run of events the sheet is open exactly when the last event opened it |
| Matches.Opponent | app/matches/page.tsx:70-72 | player 2 when the user is player 1, else player 1 |
| Matches.OpponentIsTheOtherPlayer | app/matches/page.tsx:70-72 | for a participant, the opponent is the other participant, never the user |
| Matches.NameLabel | app/matches/page.tsx:153 | the display name when truthy; a missing opponent reads "undefined undefined" |
| Matches.NameLabelFallsBackToNames | app/profile/page.tsx:100 | without a display name the profile heading (like the opponent label) is "first last" |
| Matches.MatchResult | app/matches/page.tsx:74-78 | a victory iff the user won; a defeat iff someone else won; a draw iff there is no winner |
| Matches.ColorFollowsResult | app/matches/page.tsx:80-84 | the badge colour is a function of the outcome alone |
| Matches.UserScores | app/matches/page.tsx:300-302 | the user's score comes first |
| Matches.ScoresMirror | app/matches/page.tsx:265-266 | the two players see the same score pair, mirrored |
| Matches.CanRespond | app/matches/page.tsx:143-174 | only a player who did not create the challenge is offered accept and decline |
| Matches.ExactlyOnePlayerResponds | app/matches/page.tsx:143-174 | of the two players of a challenge, exactly one may respond |
| Matches.Tab | app/matches/page.tsx:20-54 | a tab holds exactly the user's matches with its status, each as often as the backend returned it |
| Matches.TabKeepsOrder | app/matches/page.tsx:20-68 | a tab keeps the order the backend sorted the rows in, so the completed tab lists matches newest first |
| Matches.CompletedTab | app/matches/page.tsx:56-68 | a prefix of the user's completed matches, of length min(10, n) |
| Matches.TabsAreDisjoint | app/matches/page.tsx:20-68 | no match appears in two tabs |
| Matches.CompletedTabMembers | app/matches/page.tsx:56-68 | everything in the completed tab is a completed match the user played in |
| NewMatch.SetField | app/matches/new/page.tsx:108-110 | the named field takes the value and every other field is kept |
| NewMatch.SetFieldLaws | app/matches/new/page.tsx:108-110 | writing a field's own value changes nothing; the last write wins |
| NewMatch.ParseInt | app/matches/new/page.tsx:124 | NaN exactly when the text does not start with a digit |
| NewMatch.ParseIntShowNat | app/matches/new/page.tsx:124 | parsing the decimal text of n gives back n |
| NewMatch.ParseIntStopsAtNonDigit | app/matches/new/page.tsx:124 | the decimal text of n followed by anything not starting with a digit parses to n: parsing stops at the first non-digit |
| NewMatch.SelectableFormInvariant | app/matches/new/page.tsx:259-283 | the initial form and every edit through the controls keep both selects on offered values |
| NewMatch.BestOfValues | app/matches/new/page.tsx:275-283 | an offered format parses to 1, 3 or 5; the default parses to 3 |
| NewMatch.ChallengeOf | app/matches/new/page.tsx:112-130 | a record exactly when an opponent is chosen and a user is signed in; the user is player 1 and the creator; the status is "pending" |
| NewMatch.OptionalFieldsNullWhenEmpty | app/matches/new/page.tsx:125-127 | empty optional text is stored as null, other text as typed |
| NewMatch.SubmitEffects | app/matches/new/page.tsx:112-148 | no effect without opponent or user; otherwise the insert, then either the notification and redirect, or the error message |
| NewMatch.NotificationOnlyAfterInsert | app/matches/new/page.tsx:132-140 | a notification follows a successful insert and goes to the opponent |
| NewMatch.FailedInsertShowsError | app/matches/new/page.tsx:143-146 | a failed insert only shows the error |
| NewMatch.ChallengeAwaitsOpponent | app/matches/new/page.tsx:128-129 | the new challenge is in both players' pending tabs, and only the opponent may answer it |
| NewMatch.Lower | app/matches/new/page.tsx:84 | lower-cases each ASCII letter and keeps the length |
| NewMatch.OccursIffSubstring | app/matches/new/page.tsx:84 | the substring scan succeeds exactly when the term occurs at some position |
| NewMatch.FormatPlayer | app/matches/new/page.tsx:92-100 | keeps id, names and avatar; the Elo is the stored rating, or 1200 when it is null or 0 |
| NewMatch.Found | app/matches/new/page.tsx:68-86 | the first min(10, n) of the n qualifying rows, in backend order; a row qualifies when it is active, not the user, has stats, and matches the term when the term has two or more characters |
| NewMatch.SearchPlayers | app/matches/new/page.tsx:66-102 | the found rows, formatted one for one |
| NewMatch.SearchResultsQualify | app/matches/new/page.tsx:78-86 | no result is the user, and each result qualifies under the query's filters |
| NewMatch.ShortTermsIgnoreText | app/matches/new/page.tsx:82-86 | any two terms shorter than two UTF-16 code units give the same results |
| NewMatch.OnTermChange | app/matches/new/page.tsx:49-53 | the search re-runs only once the term is two or more UTF-16 code units long |
| NewMatch.OneEmojiRunsTheSearch | app/matches/new/page.tsx:49-53 | a term made of one emoji already re-runs the search, since it is two code units long |
| NewMatch.MessagesExclusive | app/matches/new/page.tsx:244-249 | "Aucun joueur trouvé." and the typing hint never show together |
| PlayerStats.DisplayedElo | app/dashboard/page.tsx:65 | the stored rating, or 1200 for a missing row, a null rating or 0; never 0 |
| PlayerStats.WinRatePercent | app/profile/page.tsx:50 | 0 without matches; otherwise the rounded value of won/played·100, as a two-sided bound |
| PlayerStats.WinRatePercentBounds | app/profile/page.tsx:50 | with 0 ≤ won ≤ played the percentage is within 0..100 |
| PlayerStats.WinRatePercentIsNearest | app/dashboard/page.tsx:101 | any integer within half a point of the exact rate is the one shown |
| Dashboard.GreetingName | app/dashboard/page.tsx:52 | the display name, else the first name, else "Joueur"; never empty |
| Dashboard.CardsOf | app/dashboard/page.tsx:65-103 | each card shows the stored non-zero value or its default (1200 for Elo, 0 otherwise); the rate is the rounded percentage |
| Dashboard.NewPlayerCards | app/dashboard/page.tsx:65-103 | a player without stats sees 1200 and zeros |
| Dashboard.Steps | app/dashboard/page.tsx:16-25 | without a user, only the redirect; with one, the profile and stats reads for that user |
| Dashboard.ReadsOnlyForSignedInUser | app/dashboard/page.tsx:16-25 | a redirect happens iff no user is signed in; every read is for the signed-in user |
| ProfilePage.AvatarInitial | app/profile/page.tsx:95 | one character: the first of the display name, else of the first name, else "J" |
| ProfilePage.CurrentRanking | app/profile/page.tsx:53-59 | 1 + the number of ratings above the displayed Elo; 1 when the query failed |
| ProfilePage.CurrentRankingMonotone | app/profile/page.tsx:53-59 | a higher displayed Elo never gives a worse position |
| ProfilePage.RatingsAboveInDescendingList | app/profile/page.tsx:53-59 | in a descending list, at most i ratings lie above entry i, and exactly i when no earlier entry ties |
| ProfilePage.CurrentRankingInDescendingList | app/profile/page.tsx:53-59 | the player at index i of a best-first rating list is shown at position at most i + 1, and exactly i + 1 when no earlier rating ties |
| ProfilePage.CurrentRankingAgreesWithStandings | app/profile/page.tsx:53-59 | when the rank query returns the ratings of the rankings page's players (that page reads `profiles.elo_rating`, the rank query `player_stats.elo_rating`; the lemma takes them to hold the same values), the profile's position never exceeds the standings' rank_elo, and equals it without ties |
| ProfilePage.RankQueryAsWritten | app/profile/page.tsx:53-57 | the rank query as written yields no data, because it filters on a resource it does not embed |
| ProfilePage.AsWrittenEveryoneIsFirst | app/profile/page.tsx:53-59 | as written, every player is shown at position 1 |
| ProfilePage.RatingsAbove | app/profile/page.tsx:53-57 | the ratings of the rows the query means to return, each above the threshold |
| ProfilePage.RatingsAboveCount | app/profile/page.tsx:53-57 | one rating per active player rated above the threshold |
| ProfilePage.RankQuery | app/profile/page.tsx:53-57 | the corrected query returns one rating per active player rated above the displayed Elo, each above it |
| ProfilePage.RankQueryCountsActivePlayersAbove | app/profile/page.tsx:53-59 | with the corrected query the position is 1 + the number of active players rated above |
| ProfilePage.RankQueryAsWrittenIgnoresBetterPlayers | app/profile/page.tsx:53-59 | one active 1500 player against a 1200 player: position 1 as written, 2 corrected |
| ProfilePage.Achievements | app/profile/page.tsx:348-388 | each badge is shown exactly when its threshold is met |
| ProfilePage.DominatorWinsAtLeastFour | app/profile/page.tsx:378 | "Dominateur" implies 200·won ≥ 139·played and at least four wins |
| ProfilePage.ShowFirstMatchesHint | app/profile/page.tsx:389-391 | the hint shows exactly when no matches were played |
| ProfilePage.HintExcludesMatchAchievements | app/profile/page.tsx:389-391 | the hint never appears together with the match-count badges |
| ProfilePage.SetRatio | app/profile/page.tsx:218 | "∞" exactly when no sets were lost |
| ProfilePage.GameRatio | app/profile/page.tsx:240 | "∞" exactly when no games were lost |
| ProfilePage.RecentRowOf | app/profile/page.tsx:258-262 | a win exactly when the user is the winner |
| ProfilePage.RecentRowAgreesWithMatchesPage | app/profile/page.tsx:258-272 | the same opponent and score orientation as the matches page; a match without a winner reads "Défaite" here and "Match nul" there |
| ProfileEdit.Load | app/profile/edit/page.tsx:64-75 | every field is the stored value, or "" when it is null or empty |
| ProfileEdit.LoadOrEmpty | app/profile/edit/page.tsx:29-75 | the form stays empty when no row comes back |
| ProfileEdit.Change | app/profile/edit/page.tsx:84-87 | the named field takes the value; the other fields and the avatar are kept |
| ProfileEdit.ChangeLaws | app/profile/edit/page.tsx:84-87 | writing a field's own value changes nothing; the last write wins |
| ProfileEdit.ChangesCommute | app/profile/edit/page.tsx:84-87 | edits of different fields commute |
| ProfileEdit.TrimIsSlice | app/profile/edit/page.tsx:106 | trimming removes only white space, from both ends |
| ProfileEdit.TrimBlank | app/profile/edit/page.tsx:106 | a blank string trims to "" |
| ProfileEdit.Payload | app/profile/edit/page.tsx:101-112 | names, bio, location and phone as typed; a non-empty display name kept, else the trimmed full name; an empty birth date becomes null; the time as given |
| ProfileEdit.FallbackJoinsNames | app/profile/edit/page.tsx:106 | with trimmed names the fallback is "first last" |
| ProfileEdit.FallbackOfNoNames | app/profile/edit/page.tsx:106 | with both names empty the fallback is "", never " " |
| ProfileEdit.SaveKeepsAvatar | app/profile/edit/page.tsx:101-112 | saving never changes the stored avatar |
| ProfileEdit.LoadThenSave | app/profile/edit/page.tsx:64-112 | saving a freshly loaded profile writes back what was stored, with null text read as "" |
| ProfileEdit.Save | app/profile/edit/page.tsx:95-113 | no update without a user; otherwise the payload for that user's row |
| Wrappers.JsLength | app/matches/new/page.tsx:50 | `length` counts UTF-16 code units: between one and two per character, and one per character outside the astral planes |
| Wrappers.JsLengthConcat | app/matches/new/page.tsx:50 | the length of a concatenation is the sum of the lengths |
| Wrappers.JsLengthBelowTwo | app/matches/new/page.tsx:50 | a text is shorter than 2 exactly when it is empty or one non-astral character |
| Wrappers.NullIfEmptyOrEmptyRoundTrip | app/profile/edit/page.tsx:108 | a birth date loaded with the "" default and saved with the null default comes back unchanged, except that "" is stored as null |
| Tournaments.CurrentParticipants | app/tournaments/page.tsx:61-65 | the first embedded count, or 0 when it is absent, null or 0 |
| Tournaments.Listed | app/tournaments/page.tsx:53-55 | "all" lists every row; a status filter lists exactly the rows with that status, each as often as in the table |
| Tournaments.ListedKeepsOrder | app/tournaments/page.tsx:51-55 | a status filter keeps the start-date order of the unfiltered list |
| Tournaments.ListedIdempotent | app/tournaments/page.tsx:53-55 | applying the same status filter twice equals applying it once |
| Tournaments.StatusText | app/tournaments/page.tsx:90-103 | the four known statuses get their French labels; any other status is shown as is |
| Tournaments.StatusTextDistinguishesKnownStatuses | app/tournaments/page.tsx:90-103 | different known statuses get different labels |
| Tournaments.StatusColor | app/tournaments/page.tsx:75-88 | blue, green and orange exactly for the first three statuses; grey for everything else |
| Tournaments.UnknownStatusLooksCompleted | app/tournaments/page.tsx:83-86 | an unknown status gets the same colour as "completed" |
| Tournaments.CalendarAgreesOnColors | app/calendar/page.tsx:160-172 | the calendar colours a tournament as the tournaments page does |
| Tournaments.ShowsRegisterLink | app/tournaments/page.tsx:213-217 | the register link shows exactly for "registration_open" |
| Tournaments.RegisterLinksUnderFilter | app/tournaments/page.tsx:213-217 | under a status filter, every card has the link or none does, according to the filter |
| Admin.CheckAccess | app/admin/page.tsx:70-87 | login without a user; granted exactly for role "staff" or "admin"; home otherwise |
| Admin.ModeratorId | app/admin/page.tsx:177 | there is a moderator id exactly once access was granted, and it is the granted user's id |
| Admin.Recorded | app/admin/page.tsx:177 | the moderator id when there is one; otherwise the column keeps its previous value, because an undefined member is dropped from the JSON body |
| Admin.Validate | app/admin/page.tsx:171-181 | "completed" if valid, else "disputed", with the time; validated_by is the moderator, or the previous value when there is no moderator id yet |
| Admin.ValidateMatch | app/admin/page.tsx:171-181 | only rows with that id change |
| Admin.ValidateIgnoresPriorStatus | app/admin/page.tsx:171-181 | the outcome does not depend on the match's prior status |
| Admin.ValidateMatchIdempotent | app/admin/page.tsx:171-181 | repeating the same validation changes nothing more |
| Admin.Handle | app/admin/page.tsx:192-201 | "approved" iff approve, "rejected" iff reject, with the time; handled_by is the moderator, or the previous value when there is no moderator id yet |
| Admin.HandleUserReport | app/admin/page.tsx:192-201 | only reports with that id change |
| Admin.HandledReportLeavesQueue | app/admin/page.tsx:192-201 | a handled report is no longer pending |
| Admin.UnconditionalCountIsTableSize | app/admin/page.tsx:102 | a count without a condition is the table's size |
| Admin.StatsOf | app/admin/page.tsx:118-127 | each figure is its count, or 0 when the count is null |
| Admin.ShownWithinTable | app/admin/page.tsx:118-127 | every figure lies between 0 and the size of the table its request counts, failed requests included |
| Admin.PendingFiguresAgree | app/admin/page.tsx:108-125 | the two pending figures are equal whenever both requests succeed |
| Admin.Newest | app/admin/page.tsx:141-143 | the n newest rows of s (all of them when s is shorter), none repeated beyond its multiplicity in s, newest first |
| Admin.NewestKeepsNewest | app/admin/page.tsx:141-143 | a row left out is no newer than any row kept |
| Admin.ReviewQueue | app/admin/page.tsx:141-143 | min(10, n) of the n rows with the wanted status, none repeated beyond its multiplicity, newest first |
| Admin.ReviewQueueKeepsNewest | app/admin/page.tsx:159-161 | a row with the wanted status that is left out is no newer than any listed row |
| Admin.PendingMatches | app/admin/page.tsx:130-145 | min(10, n) of the n "pending_validation" matches, none repeated beyond its multiplicity, newest first |
| Admin.PendingReports | app/admin/page.tsx:148-163 | min(10, n) of the n "pending" reports, none repeated beyond its multiplicity, newest first |

## Left out

- Supabase, auth and navigation side effects are replaced by their inputs and outputs. These
  include queries, counts, `redirect`, `router.push`, `window.location`, `setTimeout`,
  notifications, `alert` and `console.error`. Rows arrive as sequences in backend order. An
  `ORDER BY` on a nullable timestamp (matches page, profile recent matches, tournaments by
  `start_date`) is taken as that input order.
- React state, effects and rendering are left out. So are the concurrent `Promise.all` fetches
  of the moderation dashboard and the fact that its data fetch does not wait for the access
  check. Only the final values are modelled.
- The rating logic is absent from the code, so there is no Elo formula, ATP points allocation,
  capacity check or guarded match-status machine to model.
- Rankings.WinRate: the decimal rate is an exact `real`, not an IEEE double. Its `toFixed`
  rendering is not modelled.
- Rankings.Stats: the average Elo is rounded from the exact quotient. A floating-point quotient
  within one unit in the last place of a half is not distinguished. The sum of
  `matches_played` counts every match twice, once per player; the model states the sum as
  written.
- PlayerStats.WinRatePercent: rounds the exact quotient `won/played·100`. JavaScript divides
  in floating point first, so inputs like 57 of 200 (28.499999…) can round down where the
  exact value rounds up.
- Set and game ratio values (`toFixed(2)`) are floating point; only the "∞" guard is modelled.
- Calendar: converting an ISO timestamp to a local calendar date and to milliseconds depends
  on the time zone, so each event carries both as inputs. Also left out:
  - the month window bounds of the two queries (app/calendar/page.tsx:36-37, 51-52, 66-67);
  - `navigateMonth`, whose `setMonth` day overflow the (year, month) model does not follow;
  - `formatDate`, `monthNames`, the today ring and the selected-day highlight.
- NewMatch.ParseInt: models `Number.parseInt` on text without leading blanks or a sign. Those
  cases never arise from the format select.
- NewMatch.Found: `ILIKE` is modelled as ASCII case-insensitive substring search. The `%` and
  `_` wildcards in the typed term, and commas or parentheses that would break the `.or()`
  filter string, are not interpreted. The first search runs before the current user is known
  (`currentUser?.id` is undefined); the model always takes a user id.
- ProfilePage.CurrentRanking: takes the query's result as an input, with `None` for a failed
  query. The query itself is modelled separately, as written and corrected (see Findings).
  ProfilePage.CurrentRankingAgreesWithStandings feeds it the ratings of the rankings page's
  players, so it holds only while `player_stats.elo_rating` and `profiles.elo_rating` agree.
- ProfilePage.AvatarInitial: `charAt(0)` returns one UTF-16 code unit, which is half of a
  surrogate pair when the name starts with a character outside the Basic Multilingual Plane
  (an emoji). A Dafny string cannot hold a lone surrogate, so the model returns the whole first
  character.
- Matches.UserScores: null scores are not modelled; scores are integers.
- ProfileEdit.Trim: treats ASCII white space and the no-break space as blanks. The other
  Unicode space separators that `String.prototype.trim` also removes are not modelled.
- The tournaments page's empty-state message (app/tournaments/page.tsx:224-233) lower-cases
  accented labels with `toLowerCase`; the model has no Unicode case mapping.
- The profile page's Elo history and all locale date formatting are not modelled.
- app/tournaments/[id]/page.tsx and app/tournaments/create/page.tsx are not part of this
  model; the latter only copies form fields through `parseInt`/`parseFloat`. Also outside it:
  - the static pages, the login page and the layout;
  - the theme toggle and the logout button;
  - the moderation dashboard's rendering (app/admin/page.tsx:216-520).

## Findings

| source | as written | input that shows it | evidently intended | confidence | as-written member | corrected member |
|---|---|---|---|---|---|---|
| app/profile/page.tsx:53-57 | the rank query filters on `profiles.is_active` while selecting only `elo_rating`, so `profiles` is not embedded and PostgREST rejects the request (error PGRST108); `rankingData` is null and the page shows "Position #1" | one active player rated 1500 and the viewer at 1200: shown 1, intended 2 | embed the profile (`profiles!inner(is_active)`) and count the active players rated above | medium, not executed; depends on PostgREST rejecting filters on resources the request does not embed | ProfilePage.RankQueryAsWrittenIgnoresBetterPlayers | ProfilePage.RankQueryCountsActivePlayersAbove |

=== FILE: admin.dfy ===
/** The moderation dashboard (app/admin/page.tsx): who may use it, the status each moderation
    action writes, the eight headline counts and the two review lists. */
module Admin {
  import opened Wrappers
  import opened Seqs
  import opened StableSort

  /** Where `checkAdminAccess` leaves the visitor. */
  datatype Access = ToLogin | ToHome | Granted(userId: string)

  /** A signed-in user passes only with role "staff" or "admin"; a missing profile or role sends
      them home, a missing user to the login page. */
  function CheckAccess(user: Option<string>, role: Option<string>): (a: Access)
    ensures a == ToLogin <==> user.None?
    ensures a.Granted? <==> user.Some? && role.Some? && role.value in {"staff", "admin"}
    ensures a.Granted? ==> a.userId == user.value
  {
    if user.None? then ToLogin
    else if role == Some("staff") || role == Some("admin") then Granted(user.value)
    else ToHome
  }

  /** The `currentUser?.id` the moderation writes record: set only once access was granted. */
  function ModeratorId(a: Option<Access>): (id: Option<string>)
    ensures id.Some? <==> a.Some? && a.value.Granted?
    ensures id.Some? ==> id.value == a.value.userId
  {
    if a.Some? && a.value.Granted? then Some(a.value.userId) else None
  }

  /** A `matches` row as this page sees it; `createdAt` is the creation time in milliseconds. */
  datatype MatchRow = MatchRow(id: string, status: string, createdAt: int,
    validatedBy: Option<string>, validatedAt: Option<string>)

  /** A `user_reports` row. */
  datatype ReportRow = ReportRow(id: string, status: string, createdAt: int,
    handledBy: Option<string>, handledAt: Option<string>)

  /** The column a moderation write leaves behind for `currentUser?.id`. Before access is
      granted the id is `undefined`; the request body is serialised as JSON, which drops
      `undefined` members, so the column keeps its previous value. */
  function Recorded(moderator: Option<string>, previous: Option<string>): (r: Option<string>)
    ensures moderator.Some? ==> r == moderator
    ensures moderator.None? ==> r == previous
  {
    if moderator.Some? then moderator else previous
  }

  /** `validateMatch`: "completed" when the scores are accepted, "disputed" otherwise, with the
      moderator and the time (passed in); the previous status is not consulted. */
  function Validate(m: MatchRow, isValid: bool, moderator: Option<string>, now: string): (r: MatchRow)
    ensures r.id == m.id && r.createdAt == m.createdAt
    ensures r.status == (if isValid then "completed" else "disputed")
    ensures moderator.Some? ==> r.validatedBy == moderator
    ensures moderator.None? ==> r.validatedBy == m.validatedBy
    ensures r.validatedAt == Some(now)
  {
    m.(status := if isValid then "completed" else "disputed",
       validatedBy := Recorded(moderator, m.validatedBy), validatedAt := Some(now))
  }

  /** The update is issued by id against the whole table. */
  function ValidateMatch(rows: seq<MatchRow>, matchId: string, isValid: bool, moderator: Option<string>,
                         now: string): (r: seq<MatchRow>)
    ensures |r| == |rows|
    ensures forall k :: 0 <= k < |rows| ==>
      r[k] == if rows[k].id == matchId then Validate(rows[k], isValid, moderator, now) else rows[k]
  {
    if rows == [] then []
    else
      [if rows[0].id == matchId then Validate(rows[0], isValid, moderator, now) else rows[0]]
      + ValidateMatch(rows[1..], matchId, isValid, moderator, now)
  }

  /** The outcome does not depend on the match's prior status: a completed or already disputed
      match can be validated again and ends in the same state as a pending one. */
  lemma ValidateIgnoresPriorStatus(m: MatchRow, s: string, isValid: bool, moderator: Option<string>, now: string)
    ensures Validate(m.(status := s), isValid, moderator, now) == Validate(m, isValid, moderator, now)
  {
  }

  /** Validating twice with the same decision is the same as validating once. */
  lemma ValidateMatchIdempotent(rows: seq<MatchRow>, matchId: string, isValid: bool, moderator: Option<string>, now: string)
    ensures ValidateMatch(ValidateMatch(rows, matchId, isValid, moderator, now), matchId, isValid, moderator, now)
      == ValidateMatch(rows, matchId, isValid, moderator, now)
  {
    var once := ValidateMatch(rows, matchId, isValid, moderator, now);
    var twice := ValidateMatch(once, matchId, isValid, moderator, now);
    assert |twice| == |once|;
    forall k | 0 <= k < |rows|
      ensures twice[k] == once[k]
    {
    }
  }

  datatype ReportAction = Approve | Reject

  /** `handleUserReport`: approve writes "approved", reject writes "rejected"; nothing else is
      done for an approval. */
  function Handle(rp: ReportRow, action: ReportAction, moderator: Option<string>, now: string): (r: ReportRow)
    ensures r.id == rp.id && r.createdAt == rp.createdAt
    ensures r.status == "approved" <==> action == Approve
    ensures r.status == "rejected" <==> action == Reject
    ensures moderator.Some? ==> r.handledBy == moderator
    ensures moderator.None? ==> r.handledBy == rp.handledBy
    ensures r.handledAt == Some(now)
  {
    var status := if action == Approve then "approved" else "rejected";
    assert status == "rejected" ==> action == Reject by {
      assert "approved"[0] != "rejected"[0];
    }
    ReportRow(rp.id, status, rp.createdAt, Recorded(moderator, rp.handledBy), Some(now))
  }

  function HandleUserReport(rows: seq<ReportRow>, reportId: string, action: ReportAction,
                            moderator: Option<string>, now: string): (r: seq<ReportRow>)
    ensures |r| == |rows|
    ensures forall k :: 0 <= k < |rows| ==>
      r[k] == if rows[k].id == reportId then Handle(rows[k], action, moderator, now) else rows[k]
  {
    if rows == [] then []
    else
      [if rows[0].id == reportId then Handle(rows[0], action, moderator, now) else rows[0]]
      + HandleUserReport(rows[1..], reportId, action, moderator, now)
  }

  /** A handled report leaves the "pending" queue, whatever the decision. */
  lemma HandledReportLeavesQueue(rows: seq<ReportRow>, reportId: string, action: ReportAction,
                                 moderator: Option<string>, now: string, k: int)
    requires 0 <= k < |rows| && rows[k].id == reportId
    ensures HandleUserReport(rows, reportId, action, moderator, now)[k].status != "pending"
  {
  }

  /** The rows the headline counts are taken over. */
  datatype ProfileRow = ProfileRow(lastSeen: Option<int>)
  datatype TournamentRow = TournamentRow(status: string)
  datatype Database = Database(profiles: seq<ProfileRow>, matches: seq<MatchRow>,
    tournaments: seq<TournamentRow>, reports: seq<ReportRow>)

  /** The eight `count: "exact"` requests, as data: a table and a condition on its rows. */
  datatype Table = Profiles | Matches | Tournaments | Reports
  datatype Condition = Everything | SeenSince(since: int) | StatusIs(status: string) | StatusIn(statuses: set<string>)
  datatype Query = Query(table: Table, condition: Condition)

  /** The requests in the order they are issued; `since` is now minus thirty days. */
  function Queries(since: int): (qs: seq<Query>)
    ensures |qs| == 8
  {
    [ Query(Profiles, Everything),
      Query(Profiles, SeenSince(since)),
      Query(Matches, Everything),
      Query(Matches, StatusIs("pending_validation")),
      Query(Tournaments, Everything),
      Query(Tournaments, StatusIn({"registration_open", "in_progress"})),
      Query(Matches, StatusIs("pending_validation")),
      Query(Reports, StatusIs("pending")) ]
  }

  function StatusMeets(status: string, c: Condition): bool {
    match c
    case Everything => true
    case SeenSince(_) => false
    case StatusIs(s) => status == s
    case StatusIn(ss) => status in ss
  }

  function SeenMeets(p: ProfileRow, c: Condition): bool {
    match c
    case Everything => true
    case SeenSince(since) => p.lastSeen.Some? && p.lastSeen.value >= since
    case StatusIs(_) => false
    case StatusIn(_) => false
  }

  function TableSize(db: Database, t: Table): nat {
    match t
    case Profiles => |db.profiles|
    case Matches => |db.matches|
    case Tournaments => |db.tournaments|
    case Reports => |db.reports|
  }

  /** The exact number of rows a request counts. */
  function RowCount(db: Database, q: Query): (n: nat)
    ensures n <= TableSize(db, q.table)
  {
    match q.table
    case Profiles => |Filter(db.profiles, (p: ProfileRow) => SeenMeets(p, q.condition))|
    case Matches => |Filter(db.matches, (m: MatchRow) => StatusMeets(m.status, q.condition))|
    case Tournaments => |Filter(db.tournaments, (t: TournamentRow) => StatusMeets(t.status, q.condition))|
    case Reports => |Filter(db.reports, (r: ReportRow) => StatusMeets(r.status, q.condition))|
  }

  /** What came back: each count is the exact row count, or null when its request failed. */
  predicate Answers(db: Database, since: int, counts: seq<Option<int>>) {
    |counts| == 8 && forall k :: 0 <= k < 8 ==> counts[k].None? || counts[k] == Some(RowCount(db, Queries(since)[k]))
  }

  datatype Stats = Stats(totalUsers: int, activeUsers: int, totalMatches: int, pendingMatches: int,
    totalTournaments: int, activeTournaments: int, pendingValidations: int, reportedUsers: int)

  /** `setStats`: each count, or 0 when it is null. */
  function StatsOf(counts: seq<Option<int>>): (s: Stats)
    requires |counts| == 8
    ensures s.totalUsers == OrDefault(counts[0], 0) && s.activeUsers == OrDefault(counts[1], 0)
    ensures s.totalMatches == OrDefault(counts[2], 0) && s.pendingMatches == OrDefault(counts[3], 0)
    ensures s.totalTournaments == OrDefault(counts[4], 0) && s.activeTournaments == OrDefault(counts[5], 0)
    ensures s.pendingValidations == OrDefault(counts[6], 0) && s.reportedUsers == OrDefault(counts[7], 0)
  {
    Stats(OrDefault(counts[0], 0), OrDefault(counts[1], 0), OrDefault(counts[2], 0), OrDefault(counts[3], 0),
          OrDefault(counts[4], 0), OrDefault(counts[5], 0), OrDefault(counts[6], 0), OrDefault(counts[7], 0))
  }

  /** A request without a condition counts the whole table. */
  lemma UnconditionalCountIsTableSize(db: Database, t: Table)
    ensures RowCount(db, Query(t, Everything)) == TableSize(db, t)
  {
    match t
    case Profiles => FilterKeepsAll(db.profiles, (p: ProfileRow) => SeenMeets(p, Everything));
    case Matches => FilterKeepsAll(db.matches, (m: MatchRow) => StatusMeets(m.status, Everything));
    case Tournaments => FilterKeepsAll(db.tournaments, (x: TournamentRow) => StatusMeets(x.status, Everything));
    case Reports => FilterKeepsAll(db.reports, (r: ReportRow) => StatusMeets(r.status, Everything));
  }

  /** The figure shown for request `k` is between 0 and the size of the table it counts, failed
      requests included. */
  lemma ShownWithinTable(db: Database, since: int, counts: seq<Option<int>>, k: int)
    requires Answers(db, since, counts) && 0 <= k < 8
    ensures 0 <= OrDefault(counts[k], 0) <= TableSize(db, Queries(since)[k].table)
  {
  }

  /** "Matchs en attente" and "Validations en attente" come from the same request, so whenever
      both requests succeed the two figures are equal. */
  lemma PendingFiguresAgree(db: Database, since: int, counts: seq<Option<int>>)
    requires Answers(db, since, counts)
    requires counts[3].Some? && counts[6].Some?
    ensures StatsOf(counts).pendingMatches == StatsOf(counts).pendingValidations
  {
    var qs := Queries(since);
    assert qs[3] == qs[6];
    assert counts[3] == Some(RowCount(db, qs[3]));
    assert counts[6] == Some(RowCount(db, qs[6]));
  }

  /** `.order(created, { ascending: false }).limit(n)`: the `n` newest of `s`, newest first. */
  function Newest<T>(s: seq<T>, created: T -> int, n: nat): (r: seq<T>)
    ensures |r| == Min(n, |s|)
    ensures multiset(r) <= multiset(s)
    ensures forall x :: x in r ==> x in s
    ensures forall p, q :: 0 <= p < q < |r| ==> created(r[p]) >= created(r[q])
  {
    var sorted := SortBy(s, created, Descending);
    var r := Take(sorted, n);
    assert forall x :: x in r ==> x in s by {
      forall x | x in r ensures x in s {
        assert x in multiset(r);
      }
    }
    r
  }

  /** `.eq("status", s).order("created_at", { ascending: false }).limit(10)`, with the status
      test as `wanted`. */
  function ReviewQueue<T(!new)>(rows: seq<T>, wanted: T -> bool, created: T -> int): (r: seq<T>)
    ensures |r| == Min(10, |Filter(rows, wanted)|)
    ensures multiset(r) <= multiset(Filter(rows, wanted))
    ensures forall x :: x in r ==> x in rows && wanted(x)
    ensures forall p, q :: 0 <= p < q < |r| ==> created(r[p]) >= created(r[q])
  {
    Newest(Filter(rows, wanted), created, 10)
  }

  /** A row of `s` left out of `Newest(s, created, n)` is no newer than any row in it. */
  lemma {:induction false} NewestKeepsNewest<T>(s: seq<T>, created: T -> int, n: nat, x: T, y: T)
    requires x in s
    requires x !in Newest(s, created, n)
    requires y in Newest(s, created, n)
    ensures created(x) <= created(y)
  {
    var sorted := SortBy(s, created, Descending);
    var r := Take(sorted, n);
    assert r == Newest(s, created, n);
    assert x in multiset(sorted);
    var i :| 0 <= i < |sorted| && sorted[i] == x;
    var j :| 0 <= j < |r| && r[j] == y;
    assert r[j] == sorted[j];
    assert j < i;
  }

  /** A row left out of a full queue is no newer than anything in it: the queue holds the newest
      rows with the wanted status. */
  lemma ReviewQueueKeepsNewest<T(!new)>(rows: seq<T>, wanted: T -> bool, created: T -> int, x: T, y: T)
    requires x in rows && wanted(x)
    requires x !in ReviewQueue(rows, wanted, created)
    requires y in ReviewQueue(rows, wanted, created)
    ensures created(x) <= created(y)
  {
    NewestKeepsNewest(Filter(rows, wanted), created, 10, x, y);
  }

  predicate AwaitsValidation(m: MatchRow) {
    m.status == "pending_validation"
  }

  function MatchCreated(m: MatchRow): int {
    m.createdAt
  }

  predicate AwaitsHandling(rp: ReportRow) {
    rp.status == "pending"
  }

  function ReportCreated(rp: ReportRow): int {
    rp.createdAt
  }

  /** The pending-matches list: the ten newest matches awaiting validation, or all of them. */
  function PendingMatches(rows: seq<MatchRow>): (r: seq<MatchRow>)
    ensures |r| == Min(10, |Filter(rows, AwaitsValidation)|)
    ensures multiset(r) <= multiset(Filter(rows, AwaitsValidation))
    ensures forall m :: m in r ==> m in rows && m.status == "pending_validation"
    ensures forall p, q :: 0 <= p < q < |r| ==> r[p].createdAt >= r[q].createdAt
  {
    ReviewQueue(rows, AwaitsValidation, MatchCreated)
  }

  /** The reported-users list: the ten newest pending reports, or all of them. */
  function PendingReports(rows: seq<ReportRow>): (r: seq<ReportRow>)
    ensures |r| == Min(10, |Filter(rows, AwaitsHandling)|)
    ensures multiset(r) <= multiset(Filter(rows, AwaitsHandling))
    ensures forall rp :: rp in r ==> rp in rows && rp.status == "pending"
    ensures forall p, q :: 0 <= p < q < |r| ==> r[p].createdAt >= r[q].createdAt
  {
    ReviewQueue(rows, AwaitsHandling, ReportCreated)
  }
}

=== FILE: calendar.dfy ===
/** The calendar page (app/calendar/page.tsx): the 42-cell month grid, the merged and sorted
    event list, the per-day buckets, the two-event cell truncation, the side panel and the
    status badges. */
module Calendar {
  import opened Wrappers
  import opened Seqs
  import opened StableSort
  import opened CalendarDates
  import Palette

  datatype DayCell = DayCell(date: CalDate, isCurrentMonth: bool)

  /** The layout `getDaysInMonth` produces when the first of the month falls on weekday `start`:
      the last `start` days of the previous month, the month itself, then the first days of the
      next month up to 42 cells. */
  predicate IsMonthGrid(year: int, month: int, start: int, days: seq<DayCell>)
    requires 0 <= month < 12 && 0 <= start < 7
  {
    var prev := PrevMonth(year, month);
    var next := NextMonth(year, month);
    var prevLen := DaysInMonth(prev.0, prev.1);
    var n := DaysInMonth(year, month);
    && |days| == 42
    && (forall k :: 0 <= k < start ==>
          days[k] == DayCell(CalDate(prev.0, prev.1, prevLen - start + 1 + k), false))
    && (forall k :: start <= k < start + n ==>
          days[k] == DayCell(CalDate(year, month, k - start + 1), true))
    && (forall k :: start + n <= k < 42 ==>
          days[k] == DayCell(CalDate(next.0, next.1, k - start - n + 1), false))
  }

  method MonthGrid(year: int, month: int) returns (days: seq<DayCell>)
    requires 0 <= month < 12
    ensures IsMonthGrid(year, month, Weekday(CalDate(year, month, 1)), days)
  {
    var start := Weekday(CalDate(year, month, 1));
    var prev := PrevMonth(year, month);
    var next := NextMonth(year, month);
    var prevLen := DaysInMonth(prev.0, prev.1);
    var n := DaysInMonth(year, month);
    days := [];
    var i := start - 1;
    while i >= 0
      invariant -1 <= i < start
      invariant |days| == start - 1 - i
      invariant forall k :: 0 <= k < |days| ==>
        days[k] == DayCell(CalDate(prev.0, prev.1, prevLen - start + 1 + k), false)
    {
      days := days + [DayCell(CalDate(prev.0, prev.1, prevLen - i), false)];
      i := i - 1;
    }
    var day := 1;
    while day <= n
      invariant 1 <= day <= n + 1
      invariant |days| == start + day - 1
      invariant forall k :: 0 <= k < start ==>
        days[k] == DayCell(CalDate(prev.0, prev.1, prevLen - start + 1 + k), false)
      invariant forall k :: start <= k < |days| ==>
        days[k] == DayCell(CalDate(year, month, k - start + 1), true)
    {
      days := days + [DayCell(CalDate(year, month, day), true)];
      day := day + 1;
    }
    var remaining := 42 - |days|;
    day := 1;
    while day <= remaining
      invariant 1 <= day <= remaining + 1
      invariant |days| == start + n + day - 1
      invariant forall k :: 0 <= k < start ==>
        days[k] == DayCell(CalDate(prev.0, prev.1, prevLen - start + 1 + k), false)
      invariant forall k :: start <= k < start + n ==>
        days[k] == DayCell(CalDate(year, month, k - start + 1), true)
      invariant forall k :: start + n <= k < |days| ==>
        days[k] == DayCell(CalDate(next.0, next.1, k - start - n + 1), false)
    {
      days := days + [DayCell(CalDate(next.0, next.1, day), false)];
      day := day + 1;
    }
  }

  /** The grid is 42 consecutive real dates, and a cell is flagged current exactly when its date
      lies in the displayed month. */
  lemma GridIsConsecutive(year: int, month: int, start: int, days: seq<DayCell>)
    requires 0 <= month < 12 && 0 <= start < 7
    requires IsMonthGrid(year, month, start, days)
    ensures forall k :: 0 <= k < 42 ==> Valid(days[k].date)
    ensures forall k :: 0 <= k < 41 ==> days[k + 1].date == NextDay(days[k].date)
    ensures forall k :: 0 <= k < 42 ==>
      (days[k].isCurrentMonth <==> days[k].date.year == year && days[k].date.month == month)
  {
    PrevNextInverse(year, month);
  }

  /** Along a run of consecutive dates the weekday advances by one per step. */
  lemma {:induction false} WeekdayAlongRun(dates: seq<CalDate>, k: int)
    requires forall j :: 0 <= j < |dates| ==> Valid(dates[j])
    requires forall j :: 0 <= j < |dates| - 1 ==> dates[j + 1] == NextDay(dates[j])
    requires 0 <= k < |dates|
    ensures Weekday(dates[k]) == (Weekday(dates[0]) + k) % 7
    decreases k
  {
    if k > 0 {
      WeekdayAlongRun(dates, k - 1);
      NextDayWeekday(dates[k - 1]);
      ModSevenSuccessor(Weekday(dates[0]) + k - 1);
    }
  }

  function GridDates(days: seq<DayCell>): (dates: seq<CalDate>)
    ensures |dates| == |days|
    ensures forall k :: 0 <= k < |days| ==> dates[k] == days[k].date
  {
    seq(|days|, k requires 0 <= k < |days| => days[k].date)
  }

  /** Column `k % 7` sits under the header `dayNames[k % 7]` ("Dim" first). Since the grid
      starts on the weekday of the first of the month, every date sits under its own weekday. */
  lemma GridColumnsMatchWeekdays(year: int, month: int, days: seq<DayCell>)
    requires 0 <= month < 12
    requires IsMonthGrid(year, month, Weekday(CalDate(year, month, 1)), days)
    ensures forall k :: 0 <= k < 42 ==> Valid(days[k].date) && Weekday(days[k].date) == k % 7
  {
    var start := Weekday(CalDate(year, month, 1));
    GridIsConsecutive(year, month, start, days);
    var dates := GridDates(days);
    var w0 := Weekday(dates[0]);
    WeekdayAlongRun(dates, start);
    assert dates[start] == CalDate(year, month, 1);
    assert w0 == 0;
    forall k | 0 <= k < 42 ensures Weekday(days[k].date) == k % 7 {
      WeekdayAlongRun(dates, k);
    }
  }

  /** A timestamp as the page reads it: `getTime()` in milliseconds, and the local calendar date
      that `getDate()`, `getMonth()` and `getFullYear()` report for it. */
  datatype Stamp = Stamp(millis: int, localDate: CalDate)

  datatype EventKind = TournamentEvent | MatchEvent

  datatype Event = Event(
    id: string,
    kind: EventKind,
    title: string,
    description: string,
    date: Stamp,
    location: string,
    status: string,
    participants: Option<int>)

  /** A `tournaments` row; `participantCount` is the embedded `tournament_participants(count)`. */
  datatype TournamentRow = TournamentRow(
    id: string,
    name: string,
    description: Option<string>,
    startDate: Stamp,
    location: string,
    status: string,
    participantCount: Option<int>)

  datatype PlayerNames = PlayerNames(firstName: Option<string>, lastName: Option<string>)

  /** A `matches` row with its two embedded players, either of which may be missing. */
  datatype MatchRow = MatchRow(
    id: string,
    createdAt: Stamp,
    status: string,
    player1: Option<PlayerNames>,
    player2: Option<PlayerNames>)

  function TournamentEventOf(t: TournamentRow): (e: Event)
    ensures e.kind == TournamentEvent && e.id == t.id && e.title == t.name && e.date == t.startDate
    ensures e.description == OrEmpty(t.description)
    ensures e.participants == Some(OrDefault(t.participantCount, 0))
    ensures e.location == t.location && e.status == t.status
  {
    Event(t.id, TournamentEvent, t.name, OrEmpty(t.description), t.startDate, t.location, t.status,
          Some(OrDefault(t.participantCount, 0)))
  }

  /** `${p?.first_name} ${p?.last_name}`; a missing player prints `undefined` twice. */
  function FullNameText(p: Option<PlayerNames>): (text: string)
    ensures p.None? ==> text == "undefined undefined"
    ensures p.Some? ==> text == Interpolated(p.value.firstName) + " " + Interpolated(p.value.lastName)
  {
    match p
    case None => "undefined undefined"
    case Some(n) => Interpolated(n.firstName) + " " + Interpolated(n.lastName)
  }

  function MatchTitle(m: MatchRow): (title: string)
    ensures title == FullNameText(m.player1) + " vs " + FullNameText(m.player2)
  {
    FullNameText(m.player1) + " vs " + FullNameText(m.player2)
  }

  /** With both players and all four names present the title reads "First Last vs First Last". */
  lemma MatchTitleWithNames(m: MatchRow, f1: string, l1: string, f2: string, l2: string)
    requires m.player1 == Some(PlayerNames(Some(f1), Some(l1)))
    requires m.player2 == Some(PlayerNames(Some(f2), Some(l2)))
    ensures MatchTitle(m) == f1 + " " + l1 + " vs " + f2 + " " + l2
  {
    assert FullNameText(m.player1) == f1 + " " + l1;
  }

  function MatchEventOf(m: MatchRow): (e: Event)
    ensures e.kind == MatchEvent && e.id == m.id && e.date == m.createdAt && e.status == m.status
    ensures e.title == MatchTitle(m)
    ensures e.description == "Match 1v1" && e.location == "En ligne"
    ensures e.participants.None?
  {
    Event(m.id, MatchEvent, MatchTitle(m), "Match 1v1", m.createdAt, "En ligne", m.status, None)
  }

  function TournamentEvents(ts: seq<TournamentRow>): (es: seq<Event>)
    ensures |es| == |ts|
    ensures forall i :: 0 <= i < |ts| ==> es[i] == TournamentEventOf(ts[i])
  {
    seq(|ts|, i requires 0 <= i < |ts| => TournamentEventOf(ts[i]))
  }

  function MatchEvents(ms: seq<MatchRow>): (es: seq<Event>)
    ensures |es| == |ms|
    ensures forall i :: 0 <= i < |ms| ==> es[i] == MatchEventOf(ms[i])
  {
    seq(|ms|, i requires 0 <= i < |ms| => MatchEventOf(ms[i]))
  }

  function EventTime(e: Event): int {
    e.date.millis
  }

  /** `[...tournamentEvents, ...matchEvents].sort(by getTime)`: every event once, earliest first. */
  function MergedEvents(ts: seq<TournamentRow>, ms: seq<MatchRow>): (r: seq<Event>)
    ensures |r| == |ts| + |ms|
    ensures multiset(r) == multiset(TournamentEvents(ts) + MatchEvents(ms))
    ensures Ordered(r, EventTime)
  {
    SortBy(TournamentEvents(ts) + MatchEvents(ms), EventTime, Ascending)
  }

  /** The sort is stable and the tournaments come first, so at the same instant a tournament is
      listed before a match. */
  lemma TournamentsFirstOnTies(ts: seq<TournamentRow>, ms: seq<MatchRow>, p: int, q: int)
    requires 0 <= p < q < |ts| + |ms|
    requires MergedEvents(ts, ms)[p].kind == MatchEvent
    requires MergedEvents(ts, ms)[q].kind == TournamentEvent
    ensures EventTime(MergedEvents(ts, ms)[p]) < EventTime(MergedEvents(ts, ms)[q])
  {
    var s := TournamentEvents(ts) + MatchEvents(ms);
    var r := MergedEvents(ts, ms);
    if EventTime(r[p]) == EventTime(r[q]) {
      SortByStable(s, EventTime, Ascending, p, q);
    }
  }

  function OnDate(d: CalDate): Event -> bool {
    (e: Event) => e.date.localDate == d
  }

  /** `getEventsForDate`: the events on that local calendar day, in list order. */
  function EventsForDate(events: seq<Event>, d: CalDate): (r: seq<Event>)
    ensures |r| <= |events|
    ensures forall e :: e in r <==> e in events && e.date.localDate == d
    ensures forall e :: multiset(r)[e] == if e.date.localDate == d then multiset(events)[e] else 0
  {
    Filter(events, OnDate(d))
  }

  /** Selecting a day distributes over concatenation, so the day's events keep their relative
      list order. */
  lemma EventsForDateKeepsListOrder(x: seq<Event>, y: seq<Event>, d: CalDate)
    ensures EventsForDate(x + y, d) == EventsForDate(x, d) + EventsForDate(y, d)
  {
    FilterConcat(x, y, OnDate(d));
  }

  /** A day's events are still earliest first. */
  lemma EventsForDateSorted(events: seq<Event>, d: CalDate)
    requires Ordered(events, EventTime)
    ensures Ordered(EventsForDate(events, d), EventTime)
  {
    FilterKeepsOrder(events, OnDate(d), EventTime);
  }

  /** What a grid cell shows: the first two of the day's events and, beyond that, "+k autres". */
  datatype CellEvents = CellEvents(shown: seq<Event>, more: Option<int>)

  function CellEventsOf(dayEvents: seq<Event>): (c: CellEvents)
    ensures |c.shown| == Min(2, |dayEvents|) && c.shown <= dayEvents
    ensures c.more.Some? <==> |dayEvents| > 2
    ensures c.more.Some? ==> c.more.value > 0
  {
    CellEvents(Take(dayEvents, 2), if |dayEvents| > 2 then Some(|dayEvents| - 2) else None)
  }

  /** Every event of the day is either listed or counted in "+k autres", never both. */
  lemma CellAccountsForEveryEvent(dayEvents: seq<Event>)
    ensures var c := CellEventsOf(dayEvents);
      |c.shown| + (if c.more.Some? then c.more.value else 0) == |dayEvents|
  {
  }

  /** The side panel: the selected day's events, or the first five events of the month (past
      days included), and whether the "Aucun événement prévu" placeholder appears. */
  datatype Panel = Panel(items: seq<Event>, showPlaceholder: bool)

  function SidePanel(events: seq<Event>, selected: Option<CalDate>): (p: Panel)
    ensures selected.Some? ==> p.items == EventsForDate(events, selected.value)
    ensures selected.None? ==> p.items <= events && |p.items| == Min(5, |events|)
    ensures p.showPlaceholder == if selected.Some? then EventsForDate(events, selected.value) == []
                                 else events == []
  {
    match selected
    case Some(d) => Panel(EventsForDate(events, d), EventsForDate(events, d) == [])
    case None => Panel(Take(events, 5), events == [])
  }

  /** The placeholder is computed from the untruncated list, yet appears exactly when the panel
      lists nothing. */
  lemma PlaceholderIffEmptyPanel(events: seq<Event>, selected: Option<CalDate>)
    ensures SidePanel(events, selected).showPlaceholder <==> SidePanel(events, selected).items == []
  {
  }

  /** The badge of an event in the side panel. */
  function StatusColor(status: string, kind: EventKind): (b: Palette.Badge)
    ensures kind == TournamentEvent ==>
      (b == Palette.Blue <==> status == "upcoming") &&
      (b == Palette.Green <==> status == "registration_open") &&
      (b == Palette.Orange <==> status == "in_progress") &&
      (b == Palette.Gray <==> status !in {"upcoming", "registration_open", "in_progress"})
    ensures kind == MatchEvent ==>
      (b == Palette.Purple <==> status == "scheduled") &&
      (b == Palette.Orange <==> status == "in_progress") &&
      (b == Palette.Gray <==> status !in {"scheduled", "in_progress"})
  {
    match kind
    case TournamentEvent =>
      if status == "upcoming" then Palette.Blue
      else if status == "registration_open" then Palette.Green
      else if status == "in_progress" then Palette.Orange
      else if status == "completed" then Palette.Gray
      else Palette.Gray
    case MatchEvent =>
      if status == "scheduled" then Palette.Purple
      else if status == "in_progress" then Palette.Orange
      else Palette.Gray
  }
}

=== FILE: calendar_dates.dfy ===
/** Proleptic Gregorian dates as the JavaScript `Date` object sees them in local time: a year,
    a month numbered from 0 (January) to 11, and a day of the month from 1. */
module CalendarDates {
  import Numeric

  predicate IsLeapYear(year: int) {
    year % 4 == 0 && (year % 100 != 0 || year % 400 == 0)
  }

  /** The length of a month, as `new Date(year, month + 1, 0).getDate()` gives it. */
  function DaysInMonth(year: int, month: int): (n: int)
    requires 0 <= month < 12
    ensures 28 <= n <= 31
    ensures n == 29 <==> month == 1 && IsLeapYear(year)
  {
    if month == 1 then (if IsLeapYear(year) then 29 else 28)
    else if month == 3 || month == 5 || month == 8 || month == 10 then 30
    else 31
  }

  datatype CalDate = CalDate(year: int, month: int, day: int)

  predicate Valid(d: CalDate) {
    0 <= d.month < 12 && 1 <= d.day <= DaysInMonth(d.year, d.month)
  }

  /** The month before `(year, month)`; January steps back into December of the previous year. */
  function PrevMonth(year: int, month: int): (r: (int, int))
    requires 0 <= month < 12
    ensures 0 <= r.1 < 12
    ensures r != (year, month)
  {
    if month == 0 then (year - 1, 11) else (year, month - 1)
  }

  /** The month after `(year, month)`; December steps into January of the next year. */
  function NextMonth(year: int, month: int): (r: (int, int))
    requires 0 <= month < 12
    ensures 0 <= r.1 < 12
    ensures r != (year, month)
  {
    if month == 11 then (year + 1, 0) else (year, month + 1)
  }

  lemma PrevNextInverse(year: int, month: int)
    requires 0 <= month < 12
    ensures NextMonth(PrevMonth(year, month).0, PrevMonth(year, month).1) == (year, month)
    ensures PrevMonth(NextMonth(year, month).0, NextMonth(year, month).1) == (year, month)
  {
  }

  /** The following calendar day. */
  function NextDay(d: CalDate): (r: CalDate)
    requires Valid(d)
    ensures Valid(r)
  {
    if d.day < DaysInMonth(d.year, d.month) then d.(day := d.day + 1)
    else CalDate(NextMonth(d.year, d.month).0, NextMonth(d.year, d.month).1, 1)
  }

  /** Days from 1 January of year 0 to 1 January of `year` (negative before year 0). */
  function DaysBeforeYear(year: int): int {
    365 * year + (year + 3) / 4 - (year + 99) / 100 + (year + 399) / 400
  }

  function DaysInYear(year: int): (n: int)
    ensures n == 365 || n == 366
  {
    if IsLeapYear(year) then 366 else 365
  }

  /** Days from 1 January to the first of `month`, from a cumulative table. */
  function DaysBeforeMonth(year: int, month: int): (n: int)
    requires 0 <= month <= 12
    ensures 0 <= n <= 366
  {
    [0, 31, 59, 90, 120, 151, 181, 212, 243, 273, 304, 334, 365][month]
      + (if month >= 2 && IsLeapYear(year) then 1 else 0)
  }

  /** The cumulative table agrees with the month lengths, and the months fill the year. */
  lemma DaysBeforeMonthStep(year: int, month: int)
    requires 0 <= month < 12
    ensures DaysBeforeMonth(year, month + 1) == DaysBeforeMonth(year, month) + DaysInMonth(year, month)
    ensures DaysBeforeMonth(year, 12) == DaysInYear(year)
  {
  }

  /** Quotient and remainder are determined by the division identity. */
  lemma DivUnique(y: int, m: int, q: int, r: int)
    requires m > 0 && y == m * q + r && 0 <= r < m
    ensures y / m == q
  {
    var q0 := y / m;
    var r0 := y % m;
    assert m * (q - q0) == r0 - r;
    if q - q0 >= 1 {
      Numeric.MulAwayFromZero(m, q - q0);
    } else if q - q0 <= -1 {
      Numeric.MulAwayFromZero(m, q - q0);
    }
  }

  /** Going from `y - 1` to `y` adds one multiple of `m` exactly when `m` divides `y`. */
  lemma DivStep(y: int, m: int)
    requires m > 0
    ensures (y + m) / m - (y + m - 1) / m == (if y % m == 0 then 1 else 0)
  {
    var q := y / m;
    var r := y % m;
    assert y + m == m * (q + 1) + r;
    DivUnique(y + m, m, q + 1, r);
    if r == 0 {
      assert y + m - 1 == m * q + (m - 1);
      DivUnique(y + m - 1, m, q, m - 1);
    } else {
      assert y + m - 1 == m * (q + 1) + (r - 1);
      DivUnique(y + m - 1, m, q + 1, r - 1);
    }
  }

  lemma DivisibleBy100IsDivisibleBy4(year: int)
    requires year % 100 == 0
    ensures year % 4 == 0
  {
    var q := year / 100;
    assert year == 4 * (25 * q);
  }

  lemma DivisibleBy400IsDivisibleBy100(year: int)
    requires year % 400 == 0
    ensures year % 100 == 0
  {
    var q := year / 400;
    assert year == 100 * (4 * q);
  }

  lemma DaysBeforeYearStep(year: int)
    ensures DaysBeforeYear(year + 1) == DaysBeforeYear(year) + DaysInYear(year)
  {
    DivStep(year, 4);
    DivStep(year, 100);
    DivStep(year, 400);
    var fours := (year + 4) / 4 - (year + 3) / 4;
    var hundreds := (year + 100) / 100 - (year + 99) / 100;
    var fourHundreds := (year + 400) / 400 - (year + 399) / 400;
    assert DaysBeforeYear(year + 1) - DaysBeforeYear(year) == 365 + fours - hundreds + fourHundreds;
    if year % 100 == 0 {
      DivisibleBy100IsDivisibleBy4(year);
    }
    if year % 400 == 0 {
      DivisibleBy400IsDivisibleBy100(year);
    }
  }

  /** A running day count: consecutive dates get consecutive numbers. */
  function DayNumber(d: CalDate): int
    requires Valid(d)
  {
    DaysBeforeYear(d.year) + DaysBeforeMonth(d.year, d.month) + d.day - 1
  }

  lemma NextDayNumber(d: CalDate)
    requires Valid(d)
    ensures DayNumber(NextDay(d)) == DayNumber(d) + 1
  {
    DaysBeforeMonthStep(d.year, d.month);
    if d.day == DaysInMonth(d.year, d.month) && d.month == 11 {
      DaysBeforeYearStep(d.year);
    }
  }

  /** `DayNumber` of 1 January 1970, a Thursday. */
  const UnixEpochDay := 719528

  lemma UnixEpochDayIsJanuaryFirst1970()
    ensures DayNumber(CalDate(1970, 0, 1)) == UnixEpochDay
  {
  }

  /** `getDay()`: 0 for Sunday to 6 for Saturday. */
  function Weekday(d: CalDate): (w: int)
    requires Valid(d)
    ensures 0 <= w < 7
  {
    (DayNumber(d) - UnixEpochDay + 4) % 7
  }

  lemma ModSevenSuccessor(a: int)
    ensures (a + 1) % 7 == (a % 7 + 1) % 7
  {
  }

  lemma NextDayWeekday(d: CalDate)
    requires Valid(d)
    ensures Weekday(NextDay(d)) == (Weekday(d) + 1) % 7
  {
    NextDayNumber(d);
    ModSevenSuccessor(DayNumber(d) - UnixEpochDay + 4);
  }

  /** Two known dates, fixing the weekday count to the real calendar. */
  lemma WeekdayExamples()
    ensures Weekday(CalDate(2000, 0, 1)) == 6
    ensures Weekday(CalDate(2024, 1, 29)) == 4
  {
  }
}

=== FILE: dashboard.dfy ===
/** The dashboard (app/dashboard/page.tsx): the sign-in guard, the greeting and the four stat
    cards. */
module Dashboard {
  import opened Wrappers
  import opened PlayerStats

  /** The `profiles` columns the greeting reads. */
  datatype ProfileRow = ProfileRow(displayName: Option<string>, firstName: Option<string>)

  /** `profile?.display_name || profile?.first_name || "Joueur"`. */
  function GreetingName(profile: Option<ProfileRow>): (name: string)
    ensures name != ""
    ensures profile.Some? && TruthyString(profile.value.displayName) ==> name == profile.value.displayName.value
    ensures profile.Some? && !TruthyString(profile.value.displayName) && TruthyString(profile.value.firstName)
      ==> name == profile.value.firstName.value
    ensures (profile.None? || (!TruthyString(profile.value.displayName) && !TruthyString(profile.value.firstName)))
      ==> name == "Joueur"
  {
    match profile
    case None => "Joueur"
    case Some(p) => OrElse(p.displayName, OrElse(p.firstName, "Joueur"))
  }

  /** The four cards. */
  datatype Cards = Cards(
    elo: int,
    played: int,
    won: int,
    lost: int,
    winStreak: int,
    bestWinStreak: int,
    winRate: int)

  /** The stored value where the row has a non-zero one, else the card's default. */
  predicate Shows(stats: Option<StatsRow>, column: StatsRow -> Option<int>, default: int, shown: int) {
    if stats.Some? && column(stats.value).Some? && column(stats.value).value != 0
    then shown == column(stats.value).value
    else shown == default
  }

  function CardsOf(stats: Option<StatsRow>): (c: Cards)
    ensures Shows(stats, (s: StatsRow) => s.elo, 1200, c.elo)
    ensures Shows(stats, (s: StatsRow) => s.played, 0, c.played)
    ensures Shows(stats, (s: StatsRow) => s.won, 0, c.won) && Shows(stats, (s: StatsRow) => s.lost, 0, c.lost)
    ensures Shows(stats, (s: StatsRow) => s.winStreak, 0, c.winStreak)
    ensures Shows(stats, (s: StatsRow) => s.bestWinStreak, 0, c.bestWinStreak)
    ensures c.played == 0 ==> c.winRate == 0
    ensures c.played > 0 ==> 2 * c.played * c.winRate - c.played <= 200 * c.won < 2 * c.played * c.winRate + c.played
  {
    Cards(DisplayedElo(stats), Played(stats), Count(stats, (s: StatsRow) => s.won),
          Count(stats, (s: StatsRow) => s.lost), Count(stats, (s: StatsRow) => s.winStreak),
          Count(stats, (s: StatsRow) => s.bestWinStreak), WinRatePercent(stats))
  }

  /** A new player without a stats row sees 1200 Elo and zeros everywhere else. */
  lemma NewPlayerCards()
    ensures CardsOf(None) == Cards(1200, 0, 0, 0, 0, 0, 0)
  {
  }

  /** What the server component does, in order. */
  datatype Step = Redirect(path: string) | ReadProfile(userId: string) | ReadStats(userId: string)

  /** The guard runs before any read; a signed-in user's profile and stats are read by id. */
  function Steps(user: Option<string>): (steps: seq<Step>)
    ensures user.None? ==> steps == [Redirect("/auth/login")]
    ensures user.Some? ==> steps == [ReadProfile(user.value), ReadStats(user.value)]
  {
    match user
    case None => [Redirect("/auth/login")]
    case Some(id) => [ReadProfile(id), ReadStats(id)]
  }

  /** No read happens without a user, and every read is for the signed-in user. */
  lemma ReadsOnlyForSignedInUser(user: Option<string>, k: int)
    requires 0 <= k < |Steps(user)|
    ensures Steps(user)[k].Redirect? <==> user.None?
    ensures Steps(user)[k].ReadProfile? || Steps(user)[k].ReadStats? ==> user == Some(Steps(user)[k].userId)
  {
  }
}

=== FILE: matches.dfy ===
/** The "Mes Matchs" page (app/matches/page.tsx) seen by the signed-in user: the four status
    tabs, the opponent, the result badge and the score as the user reads them. */
module Matches {
  import opened Wrappers
  import opened Seqs

  /** The profile fields embedded for each player. */
  datatype Person = Person(displayName: Option<string>, firstName: Option<string>, lastName: Option<string>)

  /** A `matches` row with its two embedded players. */
  datatype Match = Match(
    id: string,
    player1Id: string,
    player2Id: string,
    createdBy: string,
    status: string,
    winnerId: Option<string>,
    player1Score: int,
    player2Score: int,
    player1: Option<Person>,
    player2: Option<Person>)

  predicate Involves(m: Match, user: string) {
    m.player1Id == user || m.player2Id == user
  }

  /** `getOpponent`: the other embedded player when the user is player 1, else player 1. */
  function Opponent(m: Match, user: string): (o: Option<Person>)
    ensures m.player1Id == user ==> o == m.player2
    ensures m.player1Id != user ==> o == m.player1
  {
    if m.player1Id == user then m.player2 else m.player1
  }

  function OpponentId(m: Match, user: string): (id: string)
    ensures m.player1Id == user ==> id == m.player2Id
    ensures m.player1Id != user ==> id == m.player1Id
  {
    if m.player1Id == user then m.player2Id else m.player1Id
  }

  /** For a participant of a match between two different players, the user and the opponent are
      the two players, and the opponent shown is the embedded profile of the opponent. */
  lemma OpponentIsTheOtherPlayer(m: Match, user: string)
    requires Involves(m, user) && m.player1Id != m.player2Id
    ensures OpponentId(m, user) != user
    ensures {user, OpponentId(m, user)} == {m.player1Id, m.player2Id}
    ensures Opponent(m, user) == if OpponentId(m, user) == m.player1Id then m.player1 else m.player2
  {
  }

  /** A person's label, used for the "vs ..." line and the profile heading: the display name,
      else `${first_name} ${last_name}` as a template literal prints it (a missing person prints
      "undefined undefined"). */
  function NameLabel(o: Option<Person>): (text: string)
    ensures o.Some? && TruthyString(o.value.displayName) ==> text == o.value.displayName.value
    ensures o.None? ==> text == "undefined undefined"
  {
    match o
    case None => "undefined undefined"
    case Some(p) =>
      OrElse(p.displayName, Interpolated(p.firstName) + " " + Interpolated(p.lastName))
  }

  lemma NameLabelFallsBackToNames(p: Person, first: string, last: string)
    requires !TruthyString(p.displayName)
    requires p.firstName == Some(first) && p.lastName == Some(last)
    ensures NameLabel(Some(p)) == first + " " + last
  {
  }

  datatype Outcome = Victory | Defeat | Draw

  /** `getMatchResult` */
  function MatchResult(m: Match, user: string): (r: Outcome)
    ensures r == Victory <==> m.winnerId == Some(user)
    ensures r == Defeat <==> TruthyString(m.winnerId) && m.winnerId != Some(user)
    ensures r == Draw <==> !TruthyString(m.winnerId) && m.winnerId != Some(user)
  {
    if m.winnerId == Some(user) then Victory
    else if TruthyString(m.winnerId) then Defeat
    else Draw
  }

  function OutcomeLabel(r: Outcome): string {
    match r
    case Victory => "Victoire"
    case Defeat => "Défaite"
    case Draw => "Match nul"
  }

  datatype BadgeVariant = DefaultVariant | DestructiveVariant | SecondaryVariant

  /** `getMatchResultColor`, which repeats the tests of `getMatchResult`. */
  function MatchResultColor(m: Match, user: string): (v: BadgeVariant) {
    if m.winnerId == Some(user) then DefaultVariant
    else if TruthyString(m.winnerId) then DestructiveVariant
    else SecondaryVariant
  }

  function OutcomeVariant(r: Outcome): BadgeVariant {
    match r
    case Victory => DefaultVariant
    case Defeat => DestructiveVariant
    case Draw => SecondaryVariant
  }

  /** The badge colour is determined by the label and determines it: one colour per result. */
  lemma ColorFollowsResult(m: Match, user: string, m2: Match, user2: string)
    ensures MatchResultColor(m, user) == OutcomeVariant(MatchResult(m, user))
    ensures MatchResultColor(m, user) == MatchResultColor(m2, user2)
        <==> MatchResult(m, user) == MatchResult(m2, user2)
  {
  }

  /** Score line "mine - theirs" (in-progress and completed tabs). */
  function UserScores(m: Match, user: string): (s: (int, int))
    ensures m.player1Id == user ==> s == (m.player1Score, m.player2Score)
    ensures m.player1Id != user ==> s == (m.player2Score, m.player1Score)
  {
    if m.player1Id == user then (m.player1Score, m.player2Score) else (m.player2Score, m.player1Score)
  }

  /** The two players of a match read the same score mirrored. */
  lemma ScoresMirror(m: Match)
    requires m.player1Id != m.player2Id
    ensures UserScores(m, m.player2Id) == (UserScores(m, m.player1Id).1, UserScores(m, m.player1Id).0)
  {
  }

  /** "Défi envoyé" for the creator, "Défi reçu" otherwise. */
  predicate IsChallenger(m: Match, user: string) {
    m.createdBy == user
  }

  /** Accept and decline links are offered only to a user who did not create the challenge. */
  function CanRespond(m: Match, user: string): (b: bool)
    ensures b ==> m.createdBy != user
    ensures !b ==> IsChallenger(m, user)
  {
    !IsChallenger(m, user)
  }

  /** Of the two players of a challenge made by one of them, exactly one may respond. */
  lemma ExactlyOnePlayerResponds(m: Match)
    requires m.player1Id != m.player2Id
    requires m.createdBy == m.player1Id || m.createdBy == m.player2Id
    ensures CanRespond(m, m.player1Id) != CanRespond(m, m.player2Id)
  {
  }

  const Pending := "pending"
  const Accepted := "accepted"
  const InProgress := "in_progress"
  const Completed := "completed"

  function InTab(user: string, status: string): Match -> bool {
    (m: Match) => Involves(m, user) && m.status == status
  }

  /** A tab: the user's matches with one status, in the order the backend returned them. */
  function Tab(matches: seq<Match>, user: string, status: string): (r: seq<Match>)
    ensures |r| <= |matches|
    ensures forall m :: m in r <==> m in matches && Involves(m, user) && m.status == status
    ensures forall m ::
      multiset(r)[m] == if Involves(m, user) && m.status == status then multiset(matches)[m] else 0
  {
    Filter(matches, InTab(user, status))
  }

  /** A tab keeps the backend's order: whatever key the rows were sorted on (`scheduled_at`, or
      `created_at`, `started_at` and `completed_at` negated for the descending tabs), the tab
      stays sorted on it. */
  lemma TabKeepsOrder(matches: seq<Match>, user: string, status: string, key: Match -> int)
    requires Ordered(matches, key)
    ensures Ordered(Tab(matches, user, status), key)
  {
    FilterKeepsOrder(matches, InTab(user, status), key);
  }

  /** The "Terminés" tab keeps the first ten completed matches. */
  function CompletedTab(matches: seq<Match>, user: string): (r: seq<Match>)
    ensures |r| == Min(10, |Tab(matches, user, Completed)|)
    ensures r <= Tab(matches, user, Completed)
  {
    Take(Tab(matches, user, Completed), 10)
  }

  /** The tabs select on different statuses, so no match shows in two of them. */
  lemma TabsAreDisjoint(matches: seq<Match>, user: string, m: Match, s1: string, s2: string)
    requires s1 in {Pending, Accepted, InProgress, Completed}
    requires s2 in {Pending, Accepted, InProgress, Completed}
    requires s1 != s2
    ensures !(m in Tab(matches, user, s1) && m in Tab(matches, user, s2))
  {
  }

  /** Everything in the "Terminés" tab is a completed match the user played in. */
  lemma CompletedTabMembers(matches: seq<Match>, user: string, m: Match)
    requires m in CompletedTab(matches, user)
    ensures m in matches && Involves(m, user) && m.status == Completed
  {
  }
}

=== FILE: navigation.dfy ===
/** The mobile navigation (components/mobile-navigation.tsx): the five fixed items, the
    active-item test shared by the bottom bar and the side sheet, and the sheet's open state. */
module Navigation {
  import opened Seqs

  datatype NavItem = NavItem(name: string, href: string)

  const NavItems: seq<NavItem> := [
    NavItem("Accueil", "/"),
    NavItem("Matchs", "/matches"),
    NavItem("Tournois", "/tournaments"),
    NavItem("Classements", "/rankings"),
    NavItem("Profil", "/profile")
  ]

  /** `pathname === href || (href !== "/" && pathname.startsWith(href))`; `<=` is the sequence
      prefix test. */
  predicate IsActive(pathname: string, href: string) {
    pathname == href || (href != "/" && href <= pathname)
  }

  /** The home item is highlighted only on the home page itself. */
  lemma RootActiveOnlyAtRoot(pathname: string)
    ensures IsActive(pathname, "/") <==> pathname == "/"
  {
  }

  /** Any other item is highlighted exactly when its href is a prefix of the path. */
  lemma OtherItemsActiveOnPrefix(pathname: string, href: string)
    requires href != "/"
    ensures IsActive(pathname, href) <==> href <= pathname
  {
  }

  /** The prefix test ignores path segments: "/profiles" and "/matches-old" still highlight
      Profil and Matchs, and sub-pages highlight their parent item. */
  lemma PrefixIgnoresSegments()
    ensures IsActive("/profiles", "/profile")
    ensures IsActive("/matches-old", "/matches")
    ensures IsActive("/matches/new", "/matches")
    ensures !IsActive("/profile", "/profiles")
  {
    assert "/profile" <= "/profiles";
    assert "/matches" <= "/matches-old";
    assert "/matches" <= "/matches/new";
  }

  /** The highlight flags of the items, in bar order; the bottom bar and the sheet compute the
      same flags. */
  function Highlights(pathname: string): (flags: seq<bool>)
    ensures |flags| == |NavItems|
    ensures forall i :: 0 <= i < |NavItems| ==> (flags[i] <==> IsActive(pathname, NavItems[i].href))
  {
    seq(|NavItems|, i requires 0 <= i < |NavItems| => IsActive(pathname, NavItems[i].href))
  }

  /** For any path at most one item is highlighted: the hrefs differ in their second character. */
  lemma AtMostOneActive(pathname: string, i: int, j: int)
    requires 0 <= i < |NavItems| && 0 <= j < |NavItems| && i != j
    ensures !(Highlights(pathname)[i] && Highlights(pathname)[j])
  {
    var a := NavItems[i].href;
    var b := NavItems[j].href;
    assert a == "/" || |a| > 1;
    assert b == "/" || |b| > 1;
    assert a != "/" && b != "/" ==> a[1] != b[1];
  }

  /** Paths outside the five sections, such as the calendar or the admin area, highlight
      nothing. */
  lemma UnlistedPathsHighlightNothing()
    ensures forall i :: 0 <= i < |NavItems| ==> !Highlights("/calendar")[i]
    ensures forall i :: 0 <= i < |NavItems| ==> !Highlights("/admin")[i]
  {
    forall i | 0 <= i < |NavItems| ensures !Highlights("/calendar")[i] && !Highlights("/admin")[i] {
      var h := NavItems[i].href;
      if h != "/" {
        assert h[1] != 'c' && h[1] != 'a';
        assert !(h <= "/calendar") by { assert "/calendar"[1] == 'c'; }
        assert !(h <= "/admin") by { assert "/admin"[1] == 'a'; }
      }
    }
  }

  /** What can change the side sheet's `isOpen` state. */
  datatype SheetEvent =
    | OpenChange(open: bool)
    | CloseButton
    | ItemLink(href: string)
    | AdminLink
    | LoginLink

  /** The sheet reports its own open/close requests; the close button and every link in it
      close it. Every event sets the state outright, so the next state does not depend on the
      current one `isOpen`; it is kept so that `SheetAfter` reads as a fold of steps. */
  function SheetStep(isOpen: bool, e: SheetEvent): (next: bool)
    ensures e.OpenChange? ==> next == e.open
    ensures !e.OpenChange? ==> !next
  {
    match e
    case OpenChange(open) => open
    case CloseButton => false
    case ItemLink(_) => false
    case AdminLink => false
    case LoginLink => false
  }

  /** After any sequence of events the sheet is open exactly when the last event was a request
      to open it. */
  function SheetAfter(isOpen: bool, events: seq<SheetEvent>): bool {
    if events == [] then isOpen else SheetStep(SheetAfter(isOpen, events[..|events| - 1]), events[|events| - 1])
  }

  lemma SheetFollowsLastEvent(isOpen: bool, events: seq<SheetEvent>)
    requires events != []
    ensures SheetAfter(isOpen, events) <==> events[|events| - 1] == OpenChange(true)
  {
  }
}

=== FILE: new_match.dfy ===
/** The challenge form (app/matches/new/page.tsx): the form state and its field updates, the
    record `handleSubmit` inserts and what follows it, and the opponent search. */
module NewMatch {
  import opened Wrappers
  import opened Seqs
  import Matches

  /** The form state `matchData`; every field holds the string its control produced. */
  datatype MatchForm = MatchForm(
    matchType: string,
    bestOf: string,
    scheduledAt: string,
    location: string,
    notes: string)

  const InitialForm := MatchForm("casual", "3", "", "", "")

  /** The names the controls pass to `handleInputChange`. */
  datatype FormField = MatchTypeField | BestOfField | ScheduledAtField | LocationField | NotesField

  function Get(f: MatchForm, field: FormField): string {
    match field
    case MatchTypeField => f.matchType
    case BestOfField => f.bestOf
    case ScheduledAtField => f.scheduledAt
    case LocationField => f.location
    case NotesField => f.notes
  }

  /** `handleInputChange(field, value)`: `{ ...prev, [field]: value }`. */
  function SetField(f: MatchForm, field: FormField, value: string): (r: MatchForm)
    ensures Get(r, field) == value
    ensures forall other :: other != field ==> Get(r, other) == Get(f, other)
  {
    match field
    case MatchTypeField => f.(matchType := value)
    case BestOfField => f.(bestOf := value)
    case ScheduledAtField => f.(scheduledAt := value)
    case LocationField => f.(location := value)
    case NotesField => f.(notes := value)
  }

  /** Writing a field's own value changes nothing; a second write to a field replaces the first. */
  lemma SetFieldLaws(f: MatchForm, field: FormField, a: string, b: string)
    ensures SetField(f, field, Get(f, field)) == f
    ensures SetField(SetField(f, field, a), field, b) == SetField(f, field, b)
  {
  }

  predicate IsDigit(c: char) {
    '0' <= c <= '9'
  }

  /** The number of leading ASCII digits. */
  function LeadingDigits(s: string): (n: nat)
    ensures n <= |s|
    ensures forall i :: 0 <= i < n ==> IsDigit(s[i])
    ensures n < |s| ==> !IsDigit(s[n])
  {
    if s == [] || !IsDigit(s[0]) then 0 else 1 + LeadingDigits(s[1..])
  }

  function DigitValue(c: char): nat
    requires IsDigit(c)
  {
    c as int - '0' as int
  }

  function DigitsValue(s: string): nat
    requires forall i :: 0 <= i < |s| ==> IsDigit(s[i])
  {
    if s == [] then 0 else 10 * DigitsValue(s[..|s| - 1]) + DigitValue(s[|s| - 1])
  }

  /** `Number.parseInt` on a string without leading blanks or sign: the value of the leading
      digits, or `NaN` (`None`) when there are none. */
  function ParseInt(s: string): (r: Option<nat>)
    ensures r.None? <==> s == [] || !IsDigit(s[0])
  {
    var n := LeadingDigits(s);
    if n == 0 then None else Some(DigitsValue(s[..n]))
  }

  /** Decimal digits of `n`, as `String(n)` prints them. */
  function ShowNat(n: nat): (s: string)
    ensures |s| > 0 && forall i :: 0 <= i < |s| ==> IsDigit(s[i])
  {
    var d := ['0' + (n % 10) as char];
    if n < 10 then d else ShowNat(n / 10) + d
  }

  lemma {:induction false} DigitsValueShowNat(n: nat)
    ensures DigitsValue(ShowNat(n)) == n
    decreases n
  {
    var s := ShowNat(n);
    assert s[..|s| - 1] == (if n < 10 then [] else ShowNat(n / 10));
    if n >= 10 {
      DigitsValueShowNat(n / 10);
    }
  }

  /** Parsing what `String(n)` prints gives `n` back. */
  lemma ParseIntShowNat(n: nat)
    ensures ParseInt(ShowNat(n)) == Some(n)
  {
    var s := ShowNat(n);
    assert LeadingDigits(s) == |s|;
    assert s[..|s|] == s;
    DigitsValueShowNat(n);
  }

  /** `parseInt` stops at the first non-digit: digits followed by anything that does not start
      with a digit parse to the digits' value, so `parseInt(String(n) + rest)` is `n`. */
  lemma ParseIntStopsAtNonDigit(n: nat, rest: string)
    requires rest == [] || !IsDigit(rest[0])
    ensures ParseInt(ShowNat(n) + rest) == Some(n)
  {
    var d := ShowNat(n);
    LeadingDigitsThenStop(d, rest);
    assert (d + rest)[..|d|] == d;
    DigitsValueShowNat(n);
  }

  lemma {:induction false} LeadingDigitsThenStop(d: string, rest: string)
    requires forall i :: 0 <= i < |d| ==> IsDigit(d[i])
    requires rest == [] || !IsDigit(rest[0])
    ensures LeadingDigits(d + rest) == |d|
    decreases |d|
  {
    if d == [] {
      assert d + rest == rest;
    } else {
      assert (d + rest)[1..] == d[1..] + rest;
      LeadingDigitsThenStop(d[1..], rest);
    }
  }

  /** The choices the two selects offer. */
  predicate SelectableForm(f: MatchForm) {
    f.matchType in {"casual", "ranked"} && f.bestOf in {"1", "3", "5"}
  }

  /** The form starts selectable, and choosing a select option or typing into a text field keeps
      it so. */
  lemma SelectableFormInvariant(f: MatchForm, field: FormField, value: string)
    ensures SelectableForm(InitialForm)
    ensures SelectableForm(f) && field == MatchTypeField && value in {"casual", "ranked"}
      ==> SelectableForm(SetField(f, field, value))
    ensures SelectableForm(f) && field == BestOfField && value in {"1", "3", "5"}
      ==> SelectableForm(SetField(f, field, value))
    ensures SelectableForm(f) && field in {ScheduledAtField, LocationField, NotesField}
      ==> SelectableForm(SetField(f, field, value))
  {
  }

  /** The selectable formats parse to 1, 3 and 5 sets, 3 by default. */
  lemma BestOfValues(f: MatchForm)
    requires SelectableForm(f)
    ensures ParseInt(f.bestOf).Some? && ParseInt(f.bestOf).value in {1, 3, 5}
    ensures ParseInt(InitialForm.bestOf) == Some(3)
  {
    ParseIntShowNat(1);
    ParseIntShowNat(3);
    ParseIntShowNat(5);
    assert ShowNat(1) == "1" && ShowNat(3) == "3" && ShowNat(5) == "5";
  }

  /** A player as the search formats it. */
  datatype Player = Player(
    id: string,
    displayName: Option<string>,
    firstName: Option<string>,
    lastName: Option<string>,
    avatarUrl: Option<string>,
    elo: int)

  /** The `matches` row `handleSubmit` inserts; `bestOf` is `None` for `NaN`. */
  datatype Challenge = Challenge(
    player1Id: string,
    player2Id: string,
    matchType: string,
    bestOf: Option<nat>,
    scheduledAt: Option<string>,
    location: Option<string>,
    notes: Option<string>,
    createdBy: string,
    status: string)

  /** The record, or nothing when no opponent is selected or no user is signed in. */
  function ChallengeOf(opponent: Option<Player>, user: Option<string>, f: MatchForm): (r: Option<Challenge>)
    ensures r.Some? <==> opponent.Some? && user.Some?
    ensures r.Some? ==>
      && r.value.player1Id == user.value && r.value.createdBy == user.value
      && r.value.player2Id == opponent.value.id
      && r.value.status == "pending"
      && r.value.matchType == f.matchType
      && r.value.bestOf == ParseInt(f.bestOf)
  {
    if opponent.None? || user.None? then None
    else Some(Challenge(user.value, opponent.value.id, f.matchType, ParseInt(f.bestOf),
                        NullIfEmpty(f.scheduledAt), NullIfEmpty(f.location), NullIfEmpty(f.notes),
                        user.value, "pending"))
  }

  /** The optional text fields are stored as typed, or as `null` when left empty. */
  lemma OptionalFieldsNullWhenEmpty(opponent: Player, user: string, f: MatchForm)
    ensures var c := ChallengeOf(Some(opponent), Some(user), f).value;
      && (c.scheduledAt.None? <==> f.scheduledAt == "")
      && (c.location.None? <==> f.location == "")
      && (c.notes.None? <==> f.notes == "")
      && OrEmpty(c.scheduledAt) == f.scheduledAt
      && OrEmpty(c.location) == f.location
      && OrEmpty(c.notes) == f.notes
  {
    NullIfEmptyOrEmptyRoundTrip(f.scheduledAt, None);
    NullIfEmptyOrEmptyRoundTrip(f.location, None);
    NullIfEmptyOrEmptyRoundTrip(f.notes, None);
  }

  /** What the submission does, in order. */
  datatype Effect =
    | InsertMatch(challenge: Challenge)
    | InsertNotification(userId: string, title: string, message: string, kind: string)
    | Navigate(path: string)
    | ShowError(message: string)

  const CreateError := "Erreur lors de la création du match"

  /** `handleSubmit`; `insertOk` is whether the backend accepted the match. */
  function SubmitEffects(opponent: Option<Player>, user: Option<string>, f: MatchForm, insertOk: bool)
    : (effects: seq<Effect>)
    ensures ChallengeOf(opponent, user, f).None? ==> effects == []
    ensures ChallengeOf(opponent, user, f).Some? ==>
      |effects| > 0 && effects[0] == InsertMatch(ChallengeOf(opponent, user, f).value)
    ensures ChallengeOf(opponent, user, f).Some? && insertOk ==>
      effects[1..] == [InsertNotification(opponent.value.id, "Nouveau défi reçu",
                                          "Vous avez reçu un défi de match de la part d'un autre joueur.",
                                          "match_request"),
                       Navigate("/matches")]
    ensures ChallengeOf(opponent, user, f).Some? && !insertOk ==> effects[1..] == [ShowError(CreateError)]
  {
    match ChallengeOf(opponent, user, f)
    case None => []
    case Some(c) =>
      [InsertMatch(c)] +
      (if insertOk then
         [InsertNotification(c.player2Id, "Nouveau défi reçu",
                             "Vous avez reçu un défi de match de la part d'un autre joueur.",
                             "match_request"),
          Navigate("/matches")]
       else [ShowError(CreateError)])
  }

  /** A notification goes out only after a successful insert, and only to the opponent. */
  lemma NotificationOnlyAfterInsert(opponent: Option<Player>, user: Option<string>, f: MatchForm,
                                    insertOk: bool, k: int)
    requires 0 <= k < |SubmitEffects(opponent, user, f, insertOk)|
    requires SubmitEffects(opponent, user, f, insertOk)[k].InsertNotification?
    ensures insertOk && opponent.Some? && user.Some? && k > 0
    ensures SubmitEffects(opponent, user, f, insertOk)[0].InsertMatch?
    ensures SubmitEffects(opponent, user, f, insertOk)[k].userId == opponent.value.id
  {
  }

  /** Without a successful insert nothing is sent and the page stays, showing the error. */
  lemma FailedInsertShowsError(opponent: Player, user: string, f: MatchForm)
    ensures SubmitEffects(Some(opponent), Some(user), f, false)
      == [InsertMatch(ChallengeOf(Some(opponent), Some(user), f).value), ShowError(CreateError)]
  {
  }

  /** The challenge seen on the matches page: it is pending for both players, and only the
      challenged player is offered accept and decline. */
  lemma ChallengeAwaitsOpponent(opponent: Player, user: string, f: MatchForm)
    requires opponent.id != user
    ensures var c := ChallengeOf(Some(opponent), Some(user), f).value;
      var m := Matches.Match("", c.player1Id, c.player2Id, c.createdBy, c.status, None, 0, 0, None, None);
      && m in Matches.Tab([m], user, Matches.Pending)
      && m in Matches.Tab([m], opponent.id, Matches.Pending)
      && !Matches.CanRespond(m, user)
      && Matches.CanRespond(m, opponent.id)
  {
  }

  // The opponent search.

  function LowerAscii(c: char): char {
    if 'A' <= c <= 'Z' then c - 'A' + 'a' else c
  }

  function Lower(s: string): (r: string)
    ensures |r| == |s|
    ensures forall i :: 0 <= i < |s| ==> r[i] == LowerAscii(s[i])
  {
    seq(|s|, i requires 0 <= i < |s| => LowerAscii(s[i]))
  }

  /** `needle` occurs somewhere in `hay`, checked by scanning. */
  function Occurs(needle: string, hay: string): bool
    decreases |hay|
  {
    needle <= hay || (hay != [] && Occurs(needle, hay[1..]))
  }

  predicate OccursAt(needle: string, hay: string, i: int) {
    0 <= i && i + |needle| <= |hay| && hay[i..i + |needle|] == needle
  }

  lemma OccursAtTail(needle: string, hay: string, i: int)
    requires hay != [] && i > 0
    ensures OccursAt(needle, hay, i) <==> OccursAt(needle, hay[1..], i - 1)
  {
    if i + |needle| <= |hay| {
      assert hay[i..i + |needle|] == hay[1..][i - 1..i - 1 + |needle|];
    }
  }

  lemma OccursAtStart(needle: string, hay: string)
    ensures OccursAt(needle, hay, 0) <==> needle <= hay
  {
  }

  /** The scan agrees with the definition of a substring. */
  lemma {:induction false} OccursIffSubstring(needle: string, hay: string)
    ensures Occurs(needle, hay) <==> exists i :: OccursAt(needle, hay, i)
    decreases |hay|
  {
    OccursAtStart(needle, hay);
    if hay != [] && !(needle <= hay) {
      OccursIffSubstring(needle, hay[1..]);
      if Occurs(needle, hay[1..]) {
        var i :| OccursAt(needle, hay[1..], i);
        OccursAtTail(needle, hay, i + 1);
      } else {
        forall i | OccursAt(needle, hay, i) ensures false {
          if i > 0 {
            OccursAtTail(needle, hay, i);
          }
        }
      }
    }
  }

  /** `column ILIKE '%term%'`: a null column never matches. */
  predicate ILikeContains(column: Option<string>, term: string) {
    column.Some? && Occurs(Lower(term), Lower(column.value))
  }

  /** A `profiles` row with its inner-joined `player_stats` (`None` when the player has no stats
      row; the inner `None` is a null `elo_rating`). */
  datatype ProfileRow = ProfileRow(
    id: string,
    displayName: Option<string>,
    firstName: Option<string>,
    lastName: Option<string>,
    avatarUrl: Option<string>,
    isActive: bool,
    stats: Option<Option<int>>)

  /** The query filters: active, not the user, with stats, and, for a term of two UTF-16 code
      units or more (`searchTerm.length >= 2`), a case-insensitive match on one of the three
      names. */
  function Searchable(userId: string, term: string): ProfileRow -> bool {
    (row: ProfileRow) =>
      && row.isActive
      && row.id != userId
      && row.stats.Some?
      && (JsLength(term) < 2
          || ILikeContains(row.displayName, term)
          || ILikeContains(row.firstName, term)
          || ILikeContains(row.lastName, term))
  }

  /** `elo_rating || 1200`. */
  function FormatPlayer(row: ProfileRow): (p: Player)
    ensures p.id == row.id && p.displayName == row.displayName
    ensures p.firstName == row.firstName && p.lastName == row.lastName && p.avatarUrl == row.avatarUrl
    ensures p.elo == if row.stats.Some? then OrDefault(row.stats.value, 1200) else 1200
  {
    Player(row.id, row.displayName, row.firstName, row.lastName, row.avatarUrl,
           if row.stats.Some? then OrDefault(row.stats.value, 1200) else 1200)
  }

  /** The rows the query returns: `LIMIT 10` of the qualifying rows, in backend order. */
  function Found(rows: seq<ProfileRow>, userId: string, term: string): (r: seq<ProfileRow>)
    ensures |r| == Min(10, |Filter(rows, Searchable(userId, term))|)
    ensures r <= Filter(rows, Searchable(userId, term))
    ensures forall row :: row in r ==> row in rows && Searchable(userId, term)(row)
  {
    Take(Filter(rows, Searchable(userId, term)), 10)
  }

  /** `searchPlayers`: the rows found, formatted. */
  function SearchPlayers(rows: seq<ProfileRow>, userId: string, term: string): (r: seq<Player>)
    ensures |r| == |Found(rows, userId, term)|
    ensures forall i :: 0 <= i < |r| ==> r[i] == FormatPlayer(Found(rows, userId, term)[i])
  {
    var found := Found(rows, userId, term);
    seq(|found|, i requires 0 <= i < |found| => FormatPlayer(found[i]))
  }

  /** Every result is another active player with stats and matches the term; the user never
      appears, so a challenge picked from the results is never against oneself. */
  lemma SearchResultsQualify(rows: seq<ProfileRow>, userId: string, term: string, i: int)
    requires 0 <= i < |SearchPlayers(rows, userId, term)|
    ensures var p := SearchPlayers(rows, userId, term)[i];
      exists row :: row in rows && Searchable(userId, term)(row) && p == FormatPlayer(row)
    ensures SearchPlayers(rows, userId, term)[i].id != userId
  {
    var found := Found(rows, userId, term);
    assert found[i] in found;
  }

  /** A short term searches without a name filter, so it returns the same players for any
      such term. */
  lemma ShortTermsIgnoreText(rows: seq<ProfileRow>, userId: string, t1: string, t2: string)
    requires JsLength(t1) < 2 && JsLength(t2) < 2
    ensures SearchPlayers(rows, userId, t1) == SearchPlayers(rows, userId, t2)
  {
    FilterSameTest(rows, Searchable(userId, t1), Searchable(userId, t2));
  }

  /** The search box: the term and the list shown. Typing only re-runs the search once the term
      has two UTF-16 code units or more; a shorter term keeps the previous list. */
  datatype SearchBox = SearchBox(term: string, players: seq<Player>)

  function OnTermChange(box: SearchBox, term: string, rows: seq<ProfileRow>, userId: string): (r: SearchBox)
    ensures r.term == term
    ensures JsLength(term) >= 2 ==> r.players == SearchPlayers(rows, userId, term)
    ensures JsLength(term) < 2 ==> r.players == box.players
  {
    if JsLength(term) >= 2 then SearchBox(term, SearchPlayers(rows, userId, term)) else box.(term := term)
  }

  /** "Aucun joueur trouvé." and the two-character hint are never shown together. */
  function NoResultMessage(box: SearchBox): bool {
    |box.players| == 0 && JsLength(box.term) >= 2
  }

  function TypeMoreHint(box: SearchBox): bool {
    JsLength(box.term) < 2
  }

  lemma MessagesExclusive(box: SearchBox)
    ensures !(NoResultMessage(box) && TypeMoreHint(box))
  {
  }

  /** A single emoji is two code units long, so typing it alone already re-runs the search
      with the name filter. */
  lemma OneEmojiRunsTheSearch(box: SearchBox, rows: seq<ProfileRow>, userId: string)
    ensures OnTermChange(box, "\U{1F600}", rows, userId).players == SearchPlayers(rows, userId, "\U{1F600}")
  {
    JsLengthBelowTwo("\U{1F600}");
  }
}

=== FILE: numeric.dfy ===
/** Integer models of the pages' `Math.round` arithmetic on exact rationals. */
module Numeric {

  /** `Math.round(num / den)` for a positive `den`: the nearest integer, halves rounded up. */
  function RoundQuotient(num: int, den: int): (r: int)
    requires den > 0
    ensures 2 * den * r - den <= 2 * num < 2 * den * r + den
  {
    var q := (2 * num + den) / (2 * den);
    assert 2 * num + den == 2 * den * q + (2 * num + den) % (2 * den);
    q
  }

  /** A positive factor keeps a non-zero integer at least as far from zero as itself. */
  lemma MulAwayFromZero(a: int, d: int)
    requires a > 0
    ensures d >= 1 ==> a * d >= a
    ensures d <= -1 ==> a * d <= -a
  {
  }

  /** The nearest integer is unique: any integer within half a unit of `num / den` is the rounded quotient. */
  lemma RoundQuotientUnique(num: int, den: int, k: int)
    requires den > 0
    requires 2 * den * k - den <= 2 * num < 2 * den * k + den
    ensures RoundQuotient(num, den) == k
  {
    var r := RoundQuotient(num, den);
    MulAwayFromZero(2 * den, r - k);
    assert 2 * den * r - 2 * den * k == 2 * den * (r - k);
  }

  /** `played ? Math.round((won / played) * 100) : 0`, with the quotient taken exactly. */
  function WinPercent(won: int, played: int): (r: int)
    ensures played == 0 ==> r == 0
    ensures played > 0 ==> 2 * played * r - played <= 200 * won < 2 * played * r + played
  {
    if played == 0 then 0
    else if played > 0 then RoundQuotient(100 * won, played)
    else RoundQuotient(-100 * won, -played)
  }

  /** A win count between zero and the number of matches played gives a percentage in 0..100. */
  lemma WinPercentBounds(won: int, played: int)
    requires 0 <= won <= played
    ensures 0 <= WinPercent(won, played) <= 100
  {
    if played > 0 {
      var r := WinPercent(won, played);
      MulAwayFromZero(2 * played, r + 1);
      MulAwayFromZero(2 * played, r - 100);
      assert 2 * played * (r + 1) == 2 * played * r + 2 * played;
      assert 2 * played * (r - 100) == 2 * played * r - 200 * played;
    }
  }
}

=== FILE: palette.dfy ===
/** The badge colours the pages pick from (Tailwind `bg-*-100 text-*-800` pairs). */
module Palette {
  datatype Badge = Blue | Green | Orange | Gray | Purple
}

=== FILE: player_stats.dfy ===
/** The `player_stats` row read by the profile and dashboard pages, and the figures both pages
    derive from it with the same `||` defaults (app/profile/page.tsx, app/dashboard/page.tsx). */
module PlayerStats {
  import opened Wrappers
  import Numeric

  /** A `player_stats` row; every column is nullable. */
  datatype StatsRow = StatsRow(
    elo: Option<int>,
    played: Option<int>,
    won: Option<int>,
    lost: Option<int>,
    winStreak: Option<int>,
    bestWinStreak: Option<int>,
    setsWon: Option<int>,
    setsLost: Option<int>,
    gamesWon: Option<int>,
    gamesLost: Option<int>)

  /** `stats?.<column>`: absent when the row itself is missing. */
  function Column(stats: Option<StatsRow>, column: StatsRow -> Option<int>): (v: Option<int>)
    ensures stats.None? ==> v.None?
    ensures stats.Some? ==> v == column(stats.value)
  {
    if stats.Some? then column(stats.value) else None
  }

  /** `stats?.elo_rating || 1200`: a missing row, a null rating or a rating of 0 show 1200. */
  function DisplayedElo(stats: Option<StatsRow>): (elo: int)
    ensures elo == OrDefault(Column(stats, (s: StatsRow) => s.elo), 1200)
    ensures elo != 0
  {
    OrDefault(Column(stats, (s: StatsRow) => s.elo), 1200)
  }

  /** `stats?.<count> || 0`. */
  function Count(stats: Option<StatsRow>, column: StatsRow -> Option<int>): (n: int)
    ensures stats.None? ==> n == 0
    ensures stats.Some? && column(stats.value).Some? ==> n == column(stats.value).value
    ensures stats.Some? && column(stats.value).None? ==> n == 0
  {
    OrDefault(Column(stats, column), 0)
  }

  function Played(stats: Option<StatsRow>): int {
    Count(stats, (s: StatsRow) => s.played)
  }

  /** `stats?.matches_played ? Math.round((stats.matches_won / stats.matches_played) * 100) : 0`;
      a null `matches_won` counts as 0 in the division. */
  function WinRatePercent(stats: Option<StatsRow>): (r: int)
    ensures Played(stats) == 0 ==> r == 0
    ensures Played(stats) > 0 ==>
      var p := Played(stats);
      var w := Count(stats, (s: StatsRow) => s.won);
      2 * p * r - p <= 200 * w < 2 * p * r + p
  {
    Numeric.WinPercent(Count(stats, (s: StatsRow) => s.won), Played(stats))
  }

  /** With consistent counters the percentage is between 0 and 100. */
  lemma WinRatePercentBounds(stats: Option<StatsRow>)
    requires 0 <= Count(stats, (s: StatsRow) => s.won) <= Played(stats)
    ensures 0 <= WinRatePercent(stats) <= 100
  {
    Numeric.WinPercentBounds(Count(stats, (s: StatsRow) => s.won), Played(stats));
  }

  /** The percentage is the nearest integer to won/played·100: any integer within half a point
      of it is the one shown. */
  lemma WinRatePercentIsNearest(stats: Option<StatsRow>, k: int)
    requires Played(stats) > 0
    requires var p := Played(stats);
      2 * p * k - p <= 200 * Count(stats, (s: StatsRow) => s.won) < 2 * p * k + p
    ensures WinRatePercent(stats) == k
  {
    Numeric.RoundQuotientUnique(100 * Count(stats, (s: StatsRow) => s.won), Played(stats), k);
  }
}

=== FILE: profile.dfy ===
/** The player's own profile page (app/profile/page.tsx): heading fallbacks, the "Position #"
    rank, the achievements, the set and game ratios and the recent-match rows. */
module ProfilePage {
  import opened Wrappers
  import opened Seqs
  import opened PlayerStats
  import Matches
  import Rankings

  /** The heading is `profile?.display_name || `${profile?.first_name} ${profile?.last_name}``,
      the expression the matches page uses for an opponent, so it is `Matches.NameLabel` of the
      profile's name columns. */
  type ProfileRow = Matches.Person

  /** `display_name?.charAt(0) || first_name?.charAt(0) || "J"`. */
  function AvatarInitial(profile: Option<ProfileRow>): (text: string)
    ensures |text| == 1
    ensures profile.Some? && TruthyString(profile.value.displayName) ==> text == profile.value.displayName.value[..1]
    ensures profile.Some? && !TruthyString(profile.value.displayName) && TruthyString(profile.value.firstName)
      ==> text == profile.value.firstName.value[..1]
    ensures (profile.None? || (!TruthyString(profile.value.displayName) && !TruthyString(profile.value.firstName)))
      ==> text == "J"
  {
    if profile.Some? && TruthyString(profile.value.displayName) then profile.value.displayName.value[..1]
    else if profile.Some? && TruthyString(profile.value.firstName) then profile.value.firstName.value[..1]
    else "J"
  }

  function Above(elo: int): int -> bool {
    (e: int) => e > elo
  }

  /** `(rankingData?.length || 0) + 1`, where `rankingData` holds the ratings strictly above the
      player's displayed Elo among `ratings`, or is missing when the query failed. */
  function CurrentRanking(ratings: Option<seq<int>>, stats: Option<StatsRow>): (rank: int)
    ensures rank >= 1
    ensures ratings.None? ==> rank == 1
    ensures ratings.Some? ==> rank == 1 + |Filter(ratings.value, Above(DisplayedElo(stats)))|
  {
    match ratings
    case None => 1
    case Some(rs) => 1 + |Filter(rs, Above(DisplayedElo(stats)))|
  }

  /** Competition ranking: equal ratings share a position, and a higher rating never gives a
      worse position. */
  lemma CurrentRankingMonotone(ratings: seq<int>, a: Option<StatsRow>, b: Option<StatsRow>)
    ensures DisplayedElo(a) == DisplayedElo(b) ==> CurrentRanking(Some(ratings), a) == CurrentRanking(Some(ratings), b)
    ensures DisplayedElo(a) >= DisplayedElo(b) ==> CurrentRanking(Some(ratings), a) <= CurrentRanking(Some(ratings), b)
  {
    if DisplayedElo(a) >= DisplayedElo(b) {
      FilterLengthMonotone(ratings, Above(DisplayedElo(a)), Above(DisplayedElo(b)));
    }
  }

  predicate Descending(ratings: seq<int>) {
    forall p, q :: 0 <= p < q < |ratings| ==> ratings[p] >= ratings[q]
  }

  /** In a list of ratings ordered best first, every rating above the one at position `i` comes
      before it. */
  lemma AboveOnlyBefore(ratings: seq<int>, i: int)
    requires Descending(ratings)
    requires 0 <= i < |ratings|
    ensures Filter(ratings, Above(ratings[i])) == Filter(ratings[..i], Above(ratings[i]))
  {
    var above := Above(ratings[i]);
    var before, after := ratings[..i], ratings[i..];
    assert ratings == before + after;
    FilterConcat(before, after, above);
    forall k | 0 <= k < |after| ensures !above(after[k]) {
      assert after[k] == ratings[i + k];
    }
    FilterKeepsNone(after, above);
  }

  /** Without an earlier tie, every rating before position `i` is above it. */
  lemma AllBeforeAbove(ratings: seq<int>, i: int)
    requires Descending(ratings)
    requires 0 <= i < |ratings|
    requires forall j :: 0 <= j < i ==> ratings[j] != ratings[i]
    ensures Filter(ratings[..i], Above(ratings[i])) == ratings[..i]
  {
    var above := Above(ratings[i]);
    var before := ratings[..i];
    forall k | 0 <= k < |before| ensures above(before[k]) {
      assert before[k] == ratings[k];
    }
    FilterKeepsAll(before, above);
  }

  /** So at most `i` ratings are above it, and exactly `i` when no earlier rating equals it. */
  lemma RatingsAboveInDescendingList(ratings: seq<int>, i: int)
    requires Descending(ratings)
    requires 0 <= i < |ratings|
    ensures |Filter(ratings, Above(ratings[i]))| <= i
    ensures (forall j :: 0 <= j < i ==> ratings[j] != ratings[i]) ==> |Filter(ratings, Above(ratings[i]))| == i
  {
    AboveOnlyBefore(ratings, i);
    if forall j :: 0 <= j < i ==> ratings[j] != ratings[i] {
      AllBeforeAbove(ratings, i);
    }
  }

  predicate NoEarlierTie(ratings: seq<int>, i: int)
    requires 0 <= i < |ratings|
  {
    forall j :: 0 <= j < i ==> ratings[j] != ratings[i]
  }

  /** The position shown for the rating at index `i` of a best-first list is at most `i + 1`,
      and exactly `i + 1` when no earlier rating equals it. */
  lemma CurrentRankingInDescendingList(ratings: seq<int>, i: int, stats: Option<StatsRow>)
    requires Descending(ratings)
    requires 0 <= i < |ratings|
    requires DisplayedElo(stats) == ratings[i]
    ensures CurrentRanking(Some(ratings), stats) <= i + 1
    ensures NoEarlierTie(ratings, i) ==> CurrentRanking(Some(ratings), stats) == i + 1
  {
    RatingsAboveInDescendingList(ratings, i);
  }

  /** Against the standings of the rankings page (same players, ordered by Elo) the position
      shown here never exceeds the stored Elo rank, and equals it when no one shares the
      player's rating. */
  lemma CurrentRankingAgreesWithStandings(profiles: seq<Rankings.Profile>, i: int, stats: Option<StatsRow>)
    requires Rankings.EloDescending(profiles)
    requires 0 <= i < |profiles|
    requires DisplayedElo(stats) == profiles[i].elo
    ensures var ratings := Rankings.Elos(Rankings.Standings(profiles));
      CurrentRanking(Some(ratings), stats) <= Rankings.Standings(profiles)[i].rankElo
    ensures var ratings := Rankings.Elos(Rankings.Standings(profiles));
      (forall j :: 0 <= j < i ==> profiles[j].elo != profiles[i].elo)
      ==> CurrentRanking(Some(ratings), stats) == Rankings.Standings(profiles)[i].rankElo
  {
    var standings := Rankings.Standings(profiles);
    var ratings := Rankings.Elos(standings);
    assert standings[i].rankElo == i + 1;
    DescendingCopy(profiles, ratings);
    CurrentRankingInDescendingList(ratings, i, stats);
    if forall j :: 0 <= j < i ==> profiles[j].elo != profiles[i].elo {
      assert NoEarlierTie(ratings, i);
    }
  }

  /** The ratings read off Elo-ordered profiles are in descending order. */
  lemma DescendingCopy(profiles: seq<Rankings.Profile>, ratings: seq<int>)
    requires Rankings.EloDescending(profiles)
    requires |ratings| == |profiles|
    requires forall j :: 0 <= j < |ratings| ==> ratings[j] == profiles[j].elo
    ensures Descending(ratings)
  {
  }

  /** A `player_stats` row as the rank query meets it, with the `is_active` flag of the player's
      profile. */
  datatype RankRow = RankRow(elo: Option<int>, profileActive: bool)

  /** The rank query as written: it filters on `profiles.is_active` but selects only
      `elo_rating`, so `profiles` is not an embedded resource of the request. PostgREST refuses a
      filter on a resource the request does not embed, so `rankingData` is null whatever the
      table holds. */
  function RankQueryAsWritten(rows: seq<RankRow>, stats: Option<StatsRow>): (ratings: Option<seq<int>>)
    ensures ratings.None?
  {
    None
  }

  /** As written, every player is shown at position 1. */
  lemma AsWrittenEveryoneIsFirst(rows: seq<RankRow>, stats: Option<StatsRow>)
    ensures CurrentRanking(RankQueryAsWritten(rows, stats), stats) == 1
  {
  }

  /** The rows the rank query is meant to return: those of active players whose rating is
      above `threshold` (`gt` never holds for a null rating). */
  function RankedAbove(threshold: int): RankRow -> bool {
    (row: RankRow) => row.profileActive && row.elo.Some? && row.elo.value > threshold
  }

  function RatingsAbove(rows: seq<RankRow>, threshold: int): (ratings: seq<int>)
    ensures forall k :: 0 <= k < |ratings| ==> ratings[k] > threshold
  {
    if rows == [] then []
    else
      (if RankedAbove(threshold)(rows[0]) then [rows[0].elo.value] else [])
      + RatingsAbove(rows[1..], threshold)
  }

  /** One rating per row the query is meant to return. */
  lemma {:induction false} RatingsAboveCount(rows: seq<RankRow>, threshold: int)
    ensures |RatingsAbove(rows, threshold)| == |Filter(rows, RankedAbove(threshold))|
  {
    if rows != [] {
      assert rows == [rows[0]] + rows[1..];
      FilterCons(rows[0], rows[1..], RankedAbove(threshold));
      RatingsAboveCount(rows[1..], threshold);
    }
  }

  /** The query with `profiles` embedded (`select("elo_rating, profiles!inner(is_active)")`):
      the ratings of the active players above the player's displayed Elo. */
  function RankQuery(rows: seq<RankRow>, stats: Option<StatsRow>): (ratings: Option<seq<int>>)
    ensures ratings.Some?
    ensures |ratings.value| == |Filter(rows, RankedAbove(DisplayedElo(stats)))|
    ensures forall k :: 0 <= k < |ratings.value| ==> ratings.value[k] > DisplayedElo(stats)
  {
    RatingsAboveCount(rows, DisplayedElo(stats));
    Some(RatingsAbove(rows, DisplayedElo(stats)))
  }

  /** With the corrected query the position is one more than the number of active players
      rated above the player. */
  lemma RankQueryCountsActivePlayersAbove(rows: seq<RankRow>, stats: Option<StatsRow>)
    ensures CurrentRanking(RankQuery(rows, stats), stats)
      == 1 + |Filter(rows, RankedAbove(DisplayedElo(stats)))|
  {
    var ratings := RankQuery(rows, stats).value;
    FilterKeepsAll(ratings, Above(DisplayedElo(stats)));
  }

  /** One active player rated 1500 against a player without stats (shown at 1200): the query
      as written shows position 1, the corrected one position 2. */
  lemma RankQueryAsWrittenIgnoresBetterPlayers()
    ensures CurrentRanking(RankQueryAsWritten([RankRow(Some(1500), true)], None), None) == 1
    ensures CurrentRanking(RankQuery([RankRow(Some(1500), true)], None), None) == 2
  {
    var rows := [RankRow(Some(1500), true)];
    RankQueryCountsActivePlayersAbove(rows, None);
    assert rows == [rows[0]] + [];
    FilterCons(rows[0], [], RankedAbove(1200));
  }

  datatype Achievement = Experienced | ImpressiveStreak | Confirmed | Dominator

  /** The achievement badges shown, in page order. */
  function Achievements(stats: Option<StatsRow>): (r: seq<Achievement>)
    ensures Experienced in r <==> Played(stats) >= 10
    ensures ImpressiveStreak in r <==> Count(stats, (s: StatsRow) => s.bestWinStreak) >= 5
    ensures Confirmed in r <==> DisplayedElo(stats) >= 1400
    ensures Dominator in r <==> WinRatePercent(stats) >= 70 && Played(stats) >= 5
  {
    (if Played(stats) >= 10 then [Experienced] else [])
    + (if Count(stats, (s: StatsRow) => s.bestWinStreak) >= 5 then [ImpressiveStreak] else [])
    + (if DisplayedElo(stats) >= 1400 then [Confirmed] else [])
    + (if WinRatePercent(stats) >= 70 && Played(stats) >= 5 then [Dominator] else [])
  }

  /** "Dominateur" needs at least 4 wins: 70% rounded from at least 5 matches means won/played is
      at least 69.5%. */
  lemma DominatorWinsAtLeastFour(stats: Option<StatsRow>)
    requires Dominator in Achievements(stats)
    ensures 200 * Count(stats, (s: StatsRow) => s.won) >= 139 * Played(stats)
    ensures Count(stats, (s: StatsRow) => s.won) >= 4
  {
    var p := Played(stats);
    var w := Count(stats, (s: StatsRow) => s.won);
    var r := WinRatePercent(stats);
    assert 2 * p * r - p <= 200 * w;
    assert 2 * p * r >= 140 * p by {
      assert 2 * p * r - 140 * p == 2 * p * (r - 70);
      Numeric.MulAwayFromZero(2 * p, r - 70 + 1);
    }
  }

  /** "Jouez vos premiers matchs..." when `matches_played` is missing or 0. */
  function ShowFirstMatchesHint(stats: Option<StatsRow>): (b: bool)
    ensures b <==> Played(stats) == 0
  {
    var played := Column(stats, (s: StatsRow) => s.played);
    played.None? || played.value == 0
  }

  /** The hint never appears beside an achievement that needs matches played. */
  lemma HintExcludesMatchAchievements(stats: Option<StatsRow>)
    requires ShowFirstMatchesHint(stats)
    ensures Experienced !in Achievements(stats) && Dominator !in Achievements(stats)
  {
  }

  /** `lost ? (won || 0) / lost : "∞"`: the quotient is formed only for a non-zero divisor. */
  datatype Ratio = Infinite | Quotient(num: int, den: int)

  function RatioOf(won: Option<int>, lost: Option<int>): (r: Ratio)
    ensures r.Infinite? <==> lost.None? || lost.value == 0
    ensures r.Quotient? ==> r.den != 0 && r.den == lost.value && r.num == OrDefault(won, 0)
  {
    if lost.None? || lost.value == 0 then Infinite else Quotient(OrDefault(won, 0), lost.value)
  }

  function SetRatio(stats: Option<StatsRow>): (r: Ratio)
    ensures r.Infinite? <==> Count(stats, (s: StatsRow) => s.setsLost) == 0
  {
    RatioOf(Column(stats, (s: StatsRow) => s.setsWon), Column(stats, (s: StatsRow) => s.setsLost))
  }

  function GameRatio(stats: Option<StatsRow>): (r: Ratio)
    ensures r.Infinite? <==> Count(stats, (s: StatsRow) => s.gamesLost) == 0
  {
    RatioOf(Column(stats, (s: StatsRow) => s.gamesWon), Column(stats, (s: StatsRow) => s.gamesLost))
  }

  /** A recent-match row: win flag and scores from the user's side. */
  datatype RecentRow = RecentRow(isWin: bool, playerScore: int, opponentScore: int, opponent: Option<Matches.Person>)

  function RecentRowOf(m: Matches.Match, user: string): (r: RecentRow)
    ensures r.isWin <==> m.winnerId == Some(user)
  {
    var isPlayer1 := m.player1Id == user;
    RecentRow(m.winnerId == Some(user),
              if isPlayer1 then m.player1Score else m.player2Score,
              if isPlayer1 then m.player2Score else m.player1Score,
              if isPlayer1 then m.player2 else m.player1)
  }

  /** The row agrees with the matches page on opponent, score and victories, but labels every
      non-victory "Défaite", including a completed match without a winner that the matches page
      calls "Match nul". */
  lemma RecentRowAgreesWithMatchesPage(m: Matches.Match, user: string)
    ensures var r := RecentRowOf(m, user);
      && (r.playerScore, r.opponentScore) == Matches.UserScores(m, user)
      && r.opponent == Matches.Opponent(m, user)
      && (r.isWin <==> Matches.MatchResult(m, user) == Matches.Victory)
    ensures m.winnerId.None? ==>
      !RecentRowOf(m, user).isWin && Matches.MatchResult(m, user) == Matches.Draw
  {
  }
}

=== FILE: profile_edit.dfy ===
/** The profile editor (app/profile/edit/page.tsx): loading a stored profile into the form,
    editing one field at a time, and the update payload sent on save. */
module ProfileEdit {
  import opened Wrappers

  /** A stored `profiles` row; the text columns are nullable. */
  datatype StoredProfile = StoredProfile(
    firstName: Option<string>,
    lastName: Option<string>,
    displayName: Option<string>,
    bio: Option<string>,
    dateOfBirth: Option<string>,
    location: Option<string>,
    phone: Option<string>,
    avatarUrl: Option<string>)

  /** The form state: every field is a plain string. */
  datatype ProfileForm = ProfileForm(
    firstName: string,
    lastName: string,
    displayName: string,
    bio: string,
    dateOfBirth: string,
    location: string,
    phone: string,
    avatarUrl: string)

  const EmptyForm := ProfileForm("", "", "", "", "", "", "", "")

  /** `loadProfile`: each field is the stored value, or "" where it is null or empty. */
  function Load(p: StoredProfile): (f: ProfileForm)
    ensures f.firstName == OrEmpty(p.firstName) && f.lastName == OrEmpty(p.lastName)
    ensures f.displayName == OrEmpty(p.displayName) && f.bio == OrEmpty(p.bio)
    ensures f.dateOfBirth == OrEmpty(p.dateOfBirth) && f.location == OrEmpty(p.location)
    ensures f.phone == OrEmpty(p.phone) && f.avatarUrl == OrEmpty(p.avatarUrl)
  {
    ProfileForm(OrEmpty(p.firstName), OrEmpty(p.lastName), OrEmpty(p.displayName), OrEmpty(p.bio),
                OrEmpty(p.dateOfBirth), OrEmpty(p.location), OrEmpty(p.phone), OrEmpty(p.avatarUrl))
  }

  /** The form is left empty when no row comes back. */
  function LoadOrEmpty(p: Option<StoredProfile>): (f: ProfileForm)
    ensures p.None? ==> f == EmptyForm
    ensures p.Some? ==> f == Load(p.value)
  {
    if p.Some? then Load(p.value) else EmptyForm
  }

  /** The inputs the page renders; the avatar has no input (its upload button is disabled). */
  datatype Field = FirstName | LastName | DisplayName | Bio | DateOfBirth | Location | Phone

  function Get(f: ProfileForm, field: Field): string {
    match field
    case FirstName => f.firstName
    case LastName => f.lastName
    case DisplayName => f.displayName
    case Bio => f.bio
    case DateOfBirth => f.dateOfBirth
    case Location => f.location
    case Phone => f.phone
  }

  /** `handleInputChange`: the named field takes the typed value, everything else is kept. */
  function Change(f: ProfileForm, field: Field, value: string): (g: ProfileForm)
    ensures Get(g, field) == value
    ensures forall other: Field :: other != field ==> Get(g, other) == Get(f, other)
    ensures g.avatarUrl == f.avatarUrl
  {
    match field
    case FirstName => f.(firstName := value)
    case LastName => f.(lastName := value)
    case DisplayName => f.(displayName := value)
    case Bio => f.(bio := value)
    case DateOfBirth => f.(dateOfBirth := value)
    case Location => f.(location := value)
    case Phone => f.(phone := value)
  }

  /** Typing a field's current value changes nothing, and the last edit of a field wins. */
  lemma ChangeLaws(f: ProfileForm, field: Field, v: string, w: string)
    ensures Change(f, field, Get(f, field)) == f
    ensures Change(Change(f, field, v), field, w) == Change(f, field, w)
  {
  }

  /** Edits of two different fields commute. */
  lemma ChangesCommute(f: ProfileForm, a: Field, b: Field, v: string, w: string)
    requires a != b
    ensures Change(Change(f, a, v), b, w) == Change(Change(f, b, w), a, v)
  {
  }

  /** The characters `String.prototype.trim` removes, restricted to ASCII and the no-break space. */
  predicate IsSpace(c: char) {
    c == ' ' || c == '\t' || c == '\n' || c == '\r' || c == '\U{000B}' || c == '\U{000C}' || c == '\U{00A0}'
  }

  /** Every character of `s[lo..hi]` is white space. */
  predicate Blank(s: string, lo: int, hi: int)
    requires 0 <= lo <= hi <= |s|
  {
    forall i :: lo <= i < hi ==> IsSpace(s[i])
  }

  /** The number of white-space characters `s` starts with. */
  function LeadingSpaces(s: string): (n: nat)
    ensures n <= |s|
    ensures forall i :: 0 <= i < n ==> IsSpace(s[i])
    ensures n == |s| || !IsSpace(s[n])
  {
    if s != [] && IsSpace(s[0]) then 1 + LeadingSpaces(s[1..]) else 0
  }

  /** The number of white-space characters `s` ends with. */
  function TrailingSpaces(s: string): (n: nat)
    ensures n <= |s|
    ensures forall i :: |s| - n <= i < |s| ==> IsSpace(s[i])
    ensures n == |s| || !IsSpace(s[|s| - n - 1])
  {
    if s != [] && IsSpace(s[|s| - 1]) then 1 + TrailingSpaces(s[..|s| - 1]) else 0
  }

  function TrimStart(s: string): (r: string)
    ensures r == [] || !IsSpace(r[0])
  {
    s[LeadingSpaces(s)..]
  }

  function TrimEnd(s: string): (r: string)
    ensures r == [] || !IsSpace(r[|r| - 1])
  {
    s[..|s| - TrailingSpaces(s)]
  }

  /** `.trim()`: the input with leading and trailing white space removed. */
  function Trim(s: string): (r: string)
    ensures r == [] || (!IsSpace(r[0]) && !IsSpace(r[|r| - 1]))
  {
    TrimEnd(TrimStart(s))
  }

  /** A string that neither starts nor ends with white space is its own trim. */
  lemma TrimKeepsTrimmed(s: string)
    requires s == [] || (!IsSpace(s[0]) && !IsSpace(s[|s| - 1]))
    ensures Trim(s) == s
  {
  }

  /** A string made only of white space trims to "". */
  lemma TrimBlank(s: string)
    requires forall i :: 0 <= i < |s| ==> IsSpace(s[i])
    ensures Trim(s) == ""
  {
    assert LeadingSpaces(s) == |s|;
  }

  /** Trimming removes white space only: the result is a slice of the input whose margins are
      all white space. */
  lemma TrimIsSlice(s: string)
    ensures exists a, b :: 0 <= a <= b <= |s| && Trim(s) == s[a..b] && Blank(s, 0, a) && Blank(s, b, |s|)
  {
    var a := LeadingSpaces(s);
    var t := s[a..];
    var b := a + |t| - TrailingSpaces(t);
    assert Trim(s) == s[a..b];
    forall i | b <= i < |s|
      ensures IsSpace(s[i])
    {
      assert s[i] == t[i - a];
    }
    assert Blank(s, 0, a) && Blank(s, b, |s|);
  }

  /** The `profiles` update built by `handleSubmit`. `updatedAt` is the clock, passed in. */
  datatype Update = Update(
    firstName: string,
    lastName: string,
    displayName: string,
    bio: string,
    dateOfBirth: Option<string>,
    location: string,
    phone: string,
    updatedAt: string)

  /** The name saved when the display-name field is left empty. */
  function FallbackName(f: ProfileForm): string {
    Trim(f.firstName + " " + f.lastName)
  }

  function Payload(f: ProfileForm, now: string): (u: Update)
    ensures u.firstName == f.firstName && u.lastName == f.lastName
    ensures f.displayName != "" ==> u.displayName == f.displayName
    ensures f.displayName == "" ==> u.displayName == FallbackName(f)
    ensures u.bio == f.bio && u.location == f.location && u.phone == f.phone
    ensures u.dateOfBirth == NullIfEmpty(f.dateOfBirth)
    ensures u.updatedAt == now
  {
    Update(f.firstName, f.lastName, if f.displayName != "" then f.displayName else FallbackName(f),
           f.bio, NullIfEmpty(f.dateOfBirth), f.location, f.phone, now)
  }

  /** With both names filled in and already trimmed, the fallback is "first last". */
  lemma FallbackJoinsNames(f: ProfileForm)
    requires f.firstName != [] && !IsSpace(f.firstName[0])
    requires f.lastName != [] && !IsSpace(f.lastName[|f.lastName| - 1])
    ensures FallbackName(f) == f.firstName + " " + f.lastName
  {
    var s := f.firstName + " " + f.lastName;
    assert s[0] == f.firstName[0];
    assert s[|s| - 1] == f.lastName[|f.lastName| - 1];
    TrimKeepsTrimmed(s);
  }

  /** With both names empty the fallback is "", never a lone space. */
  lemma FallbackOfNoNames(f: ProfileForm)
    requires f.firstName == "" && f.lastName == ""
    ensures FallbackName(f) == ""
  {
    assert f.firstName + " " + f.lastName == " ";
    TrimBlank(" ");
  }

  /** Applying an update to the stored row; the avatar, which the update does not carry, is kept. */
  function Apply(p: StoredProfile, u: Update): (q: StoredProfile)
    ensures q.avatarUrl == p.avatarUrl
  {
    StoredProfile(Some(u.firstName), Some(u.lastName), Some(u.displayName), Some(u.bio),
                  u.dateOfBirth, Some(u.location), Some(u.phone), p.avatarUrl)
  }

  /** Saving never changes the stored avatar, whatever was typed into the form. */
  lemma SaveKeepsAvatar(p: StoredProfile, f: ProfileForm, now: string)
    ensures Apply(p, Payload(f, now)).avatarUrl == p.avatarUrl
  {
  }

  /** Loading a profile and saving it untouched writes back what was stored, up to the
      `null`/"" distinction on the text columns, provided a display name was stored. */
  lemma LoadThenSave(p: StoredProfile, now: string)
    requires TruthyString(p.displayName)
    ensures var q := Apply(p, Payload(Load(p), now));
      q.displayName == p.displayName && q.avatarUrl == p.avatarUrl
      && q.firstName == Some(OrEmpty(p.firstName)) && q.lastName == Some(OrEmpty(p.lastName))
      && (TruthyString(p.dateOfBirth) ==> q.dateOfBirth == p.dateOfBirth)
      && (!TruthyString(p.dateOfBirth) ==> q.dateOfBirth.None?)
  {
  }

  /** What the save handler does: no user, no update. */
  datatype SaveOutcome = NotAuthenticated | Sent(userId: string, update: Update)

  function Save(user: Option<string>, f: ProfileForm, now: string): (o: SaveOutcome)
    ensures o.NotAuthenticated? <==> user.None?
    ensures o.Sent? ==> o.userId == user.value && o.update == Payload(f, now)
  {
    if user.None? then NotAuthenticated else Sent(user.value, Payload(f, now))
  }
}

=== FILE: rankings.dfy ===
/** The standings page (app/rankings/page.tsx): Elo and ATP ranks, win rates, global
    statistics, podium icons and rank-change arrows, derived from the `profiles` rows the
    backend returns ordered by Elo, best first. */
module Rankings {
  import opened Wrappers
  import opened Seqs
  import opened StableSort
  import Numeric

  /** A `profiles` row as the standings query selects it. */
  datatype Profile = Profile(
    id: string,
    username: string,
    firstName: string,
    lastName: string,
    elo: int,
    atp: int,
    played: int,
    won: int,
    lost: int,
    tournamentsWon: int)

  /** A standings row: the profile plus what the page derives for it. The previous ranks are
      never selected by the query, so they are always absent. */
  datatype RankedPlayer = RankedPlayer(
    profile: Profile,
    winRate: real,
    rankElo: int,
    rankAtp: int,
    previousEloRank: Option<int>,
    previousAtpRank: Option<int>)

  /** Percentage of matches won; zero, not a division by zero, for a player without matches. */
  function WinRate(p: Profile): (r: real)
    ensures p.played <= 0 ==> r == 0.0
    ensures p.played > 0 ==> r * (p.played as real) == (p.won as real) * 100.0
  {
    if p.played > 0 then (p.won as real / p.played as real) * 100.0 else 0.0
  }

  lemma WinRateBounds(p: Profile)
    requires 0 <= p.won <= p.played
    ensures 0.0 <= WinRate(p) <= 100.0
  {
    if p.played > 0 {
      var q := p.won as real / p.played as real;
      assert q * (p.played as real) == p.won as real;
      assert q <= 1.0 by {
        assert (q - 1.0) * (p.played as real) == (p.won - p.played) as real;
      }
    }
  }

  /** The ATP points of each profile, in the order the backend returned them. */
  function AtpKeys(profiles: seq<Profile>): (keys: seq<int>)
    ensures |keys| == |profiles|
    ensures forall i :: 0 <= i < |profiles| ==> keys[i] == profiles[i].atp
  {
    KeysOf(profiles, (p: Profile) => p.atp)
  }

  /** Indices of `profiles` in the order of the sorted copy `sortedByATP`. */
  function AtpOrder(profiles: seq<Profile>): (order: seq<int>)
    ensures StablySorted(AtpKeys(profiles), Descending, order)
    ensures IsPermutation(order, |profiles|)
  {
    SortIndices(AtpKeys(profiles), Descending)
  }

  /** The rows the page stores: Elo rank from the list position, ATP rank from the position in a
      sorted copy. The copy is shallow, so setting `rank_atp` on its elements sets it on the rows
      of the Elo-ordered list, whose order the sort leaves alone. */
  function Standings(profiles: seq<Profile>): (r: seq<RankedPlayer>)
    ensures |r| == |profiles|
    ensures forall i :: 0 <= i < |r| ==> r[i].profile == profiles[i] && r[i].rankElo == i + 1
    ensures forall i :: 0 <= i < |r| ==> r[i].winRate == WinRate(profiles[i])
    ensures forall i :: 0 <= i < |r| ==> r[i].previousEloRank.None? && r[i].previousAtpRank.None?
    ensures forall i :: 0 <= i < |r| ==> 1 <= r[i].rankAtp <= |r|
  {
    var order := AtpOrder(profiles);
    seq(|profiles|, i requires 0 <= i < |profiles| =>
      RankedPlayer(profiles[i], WinRate(profiles[i]), i + 1, 1 + IndexOf(order, i), None, None))
  }

  /** The player at position `p` of the ATP-sorted copy gets ATP rank `p + 1`. */
  lemma AtpRankIsSortedPosition(profiles: seq<Profile>, p: int)
    requires 0 <= p < |profiles|
    ensures Standings(profiles)[AtpOrder(profiles)[p]].rankAtp == p + 1
  {
    var order := AtpOrder(profiles);
    var q := IndexOf(order, order[p]);
    if q != p {
      StablySortedDistinct(AtpKeys(profiles), Descending, order, p, q);
    }
  }

  function AtpRanks(r: seq<RankedPlayer>): (s: seq<int>)
    ensures |s| == |r|
    ensures forall i :: 0 <= i < |r| ==> s[i] == r[i].rankAtp
  {
    KeysOf(r, (p: RankedPlayer) => p.rankAtp)
  }

  /** Every rank from 1 to n is given to some player. */
  lemma AtpRanksCoverAll(profiles: seq<Profile>, k: int)
    requires 1 <= k <= |profiles|
    ensures k in AtpRanks(Standings(profiles))
  {
    var order := AtpOrder(profiles);
    var i := order[k - 1];
    AtpRankIsSortedPosition(profiles, k - 1);
    assert AtpRanks(Standings(profiles))[i] == k;
  }

  /** No two players share an ATP rank. */
  lemma AtpRanksDistinct(profiles: seq<Profile>, i: int, j: int)
    requires 0 <= i < |profiles| && 0 <= j < |profiles| && i != j
    ensures Standings(profiles)[i].rankAtp != Standings(profiles)[j].rankAtp
  {
    var order := AtpOrder(profiles);
    AtpRankIsSortedPosition(profiles, IndexOf(order, i));
    AtpRankIsSortedPosition(profiles, IndexOf(order, j));
  }

  /** ATP rank follows the stable order: more points rank strictly better, and equal points
      keep the Elo order. */
  lemma AtpRankOrder(profiles: seq<Profile>, i: int, j: int)
    requires 0 <= i < |profiles| && 0 <= j < |profiles| && i != j
    ensures var r := Standings(profiles);
      r[i].rankAtp < r[j].rankAtp <==>
        profiles[i].atp > profiles[j].atp || (profiles[i].atp == profiles[j].atp && i < j)
  {
    var order := AtpOrder(profiles);
    var pi := IndexOf(order, i);
    var pj := IndexOf(order, j);
    AtpRankIsSortedPosition(profiles, pi);
    AtpRankIsSortedPosition(profiles, pj);
    PositionsFollowPrecedes(AtpKeys(profiles), Descending, order, pi, pj);
  }

  /** Reference definition of the ATP rank: one plus the number of players with more points,
      plus the number of players with as many points listed earlier in the Elo order. */
  lemma AtpRankCountsPrecedingPlayers(profiles: seq<Profile>, i: int)
    requires 0 <= i < |profiles|
    ensures Standings(profiles)[i].rankAtp
      == 1 + |set j | 0 <= j < |profiles| && (profiles[j].atp > profiles[i].atp
                                              || (profiles[j].atp == profiles[i].atp && j < i))|
  {
    var keys := AtpKeys(profiles);
    var order := AtpOrder(profiles);
    var p := IndexOf(order, i);
    AtpRankIsSortedPosition(profiles, p);
    PositionIsPrecedingCount(keys, Descending, order, p);
    PrecedingInAtpOrder(profiles, i);
  }

  /** Preceding `i` in the stable ATP-descending sort means a higher ATP score, or the same
      score earlier in the list. */
  lemma PrecedingInAtpOrder(profiles: seq<Profile>, i: int)
    requires 0 <= i < |profiles|
    ensures (set j | 0 <= j < |profiles| && Precedes(AtpKeys(profiles), Descending, j, i))
      == (set j | 0 <= j < |profiles| && (profiles[j].atp > profiles[i].atp
                                          || (profiles[j].atp == profiles[i].atp && j < i)))
  {
    var keys := AtpKeys(profiles);
    forall j | 0 <= j < |profiles|
      ensures Precedes(keys, Descending, j, i)
        <==> profiles[j].atp > profiles[i].atp || (profiles[j].atp == profiles[i].atp && j < i)
    {
      assert keys[j] == profiles[j].atp && keys[i] == profiles[i].atp;
    }
  }

  /** The global statistics card. */
  datatype RankingStats = RankingStats(
    totalPlayers: int,
    averageElo: int,
    highestElo: int,
    totalMatches: int,
    totalTournaments: int)

  function Elos(players: seq<RankedPlayer>): (s: seq<int>)
    ensures |s| == |players|
    ensures forall i :: 0 <= i < |players| ==> s[i] == players[i].profile.elo
  {
    KeysOf(players, (p: RankedPlayer) => p.profile.elo)
  }

  function MatchesPlayed(players: seq<RankedPlayer>): (s: seq<int>)
    ensures |s| == |players|
    ensures forall i :: 0 <= i < |players| ==> s[i] == players[i].profile.played
  {
    KeysOf(players, (p: RankedPlayer) => p.profile.played)
  }

  /** `tournamentsCount` is the backend's row count, absent when the count query failed. */
  function Stats(players: seq<RankedPlayer>, tournamentsCount: Option<int>): (r: RankingStats)
    ensures r.totalPlayers == |players|
    ensures |players| == 0 ==> r.averageElo == 0 && r.highestElo == 0
    ensures |players| > 0 ==>
      var n := |players|;
      2 * n * r.averageElo - n <= 2 * Sum(Elos(players)) < 2 * n * r.averageElo + n
    ensures |players| > 0 ==>
      && (exists i :: 0 <= i < |players| && players[i].profile.elo == r.highestElo)
      && (forall i :: 0 <= i < |players| ==> players[i].profile.elo <= r.highestElo)
    ensures r.totalMatches == Sum(MatchesPlayed(players))
    ensures r.totalTournaments == OrDefault(tournamentsCount, 0)
  {
    var n := |players|;
    RankingStats(
      n,
      if n > 0 then Numeric.RoundQuotient(Sum(Elos(players)), n) else 0,
      if n > 0 then Max(Elos(players)) else 0,
      Sum(MatchesPlayed(players)),
      OrDefault(tournamentsCount, 0))
  }

  /** With non-negative counters, the matches total is at least any one player's count. */
  lemma TotalMatchesBoundsEachPlayer(players: seq<RankedPlayer>, tournamentsCount: Option<int>, i: int)
    requires forall k :: 0 <= k < |players| ==> players[k].profile.played >= 0
    requires 0 <= i < |players|
    ensures 0 <= players[i].profile.played <= Stats(players, tournamentsCount).totalMatches
  {
    SumBoundsEach(MatchesPlayed(players), i);
  }

  /** The icon next to a rank: the podium only. */
  datatype Podium = Crown | Medal | Award

  function PodiumIcon(rank: int): (r: Option<Podium>)
    ensures r.Some? <==> 1 <= rank <= 3
    ensures r == Some(Crown) <==> rank == 1
  {
    if rank == 1 then Some(Crown)
    else if rank == 2 then Some(Medal)
    else if rank == 3 then Some(Award)
    else None
  }

  /** Two different ranks never show the same icon; in a tab (rank = position + 1) the icons
      are exactly on the three highlighted rows. */
  lemma PodiumIconsDistinct(a: int, b: int, index: nat)
    ensures a != b && PodiumIcon(a).Some? ==> PodiumIcon(a) != PodiumIcon(b)
    ensures PodiumIcon(index + 1).Some? <==> index < 3
  {
  }

  datatype Trend = Up | Down | Unchanged

  /** The arrow comparing a rank with a previous one; a missing or zero previous rank is falsy
      and gives no arrow. */
  function RankChange(current: int, previous: Option<int>): (t: Trend)
    ensures previous.None? || previous.value == 0 ==> t == Unchanged
    ensures previous.Some? && previous.value != 0 ==>
      && (t == Up <==> current < previous.value)
      && (t == Down <==> current > previous.value)
  {
    if previous.None? || previous.value == 0 then Unchanged
    else if current < previous.value then Up
    else if current > previous.value then Down
    else Unchanged
  }

  /** Swapping the two ranks swaps the arrow. */
  lemma RankChangeMirror(a: int, b: int)
    requires a != 0 && b != 0
    ensures RankChange(a, Some(b)) == Up <==> RankChange(b, Some(a)) == Down
    ensures RankChange(a, Some(b)) == Unchanged <==> a == b
  {
  }

  datatype RankingKind = EloRanking | AtpRanking

  function RankingKey(kind: RankingKind): RankedPlayer -> int {
    match kind
    case EloRanking => (p: RankedPlayer) => p.profile.elo
    case AtpRanking => (p: RankedPlayer) => p.profile.atp
  }

  /** `getPlayersByRanking`: a sorted copy, best first, ties in their stored order. */
  function PlayersByRanking(players: seq<RankedPlayer>, kind: RankingKind): (r: seq<RankedPlayer>)
    ensures |r| == |players|
    ensures multiset(r) == multiset(players)
    ensures forall p, q :: 0 <= p < q < |r| ==> RankingKey(kind)(r[p]) >= RankingKey(kind)(r[q])
  {
    SortBy(players, RankingKey(kind), Descending)
  }

  predicate EloDescending(profiles: seq<Profile>) {
    forall p, q :: 0 <= p < q < |profiles| ==> profiles[p].elo >= profiles[q].elo
  }

  /** The Elo tab re-sorts rows that already come in Elo order, so it shows them unchanged and the
      position shown equals the stored Elo rank. */
  lemma EloTabKeepsStandingsOrder(profiles: seq<Profile>)
    requires EloDescending(profiles)
    ensures PlayersByRanking(Standings(profiles), EloRanking) == Standings(profiles)
    ensures forall p :: 0 <= p < |profiles| ==>
      PlayersByRanking(Standings(profiles), EloRanking)[p].rankElo == p + 1
  {
    var r := Standings(profiles);
    SortedInputIsFixed(r, RankingKey(EloRanking), Descending);
  }

  /** The ATP tab lists the players in the order that assigned their ATP ranks, so the position
      shown (`#{index + 1}`) equals the stored ATP rank. */
  lemma AtpTabMatchesAtpRank(profiles: seq<Profile>)
    ensures forall p :: 0 <= p < |profiles| ==>
      PlayersByRanking(Standings(profiles), AtpRanking)[p].rankAtp == p + 1
  {
    var r := Standings(profiles);
    var keys := KeysOf(r, RankingKey(AtpRanking));
    assert keys == AtpKeys(profiles);
    var order := SortIndices(keys, Descending);
    forall p | 0 <= p < |profiles|
      ensures PlayersByRanking(r, AtpRanking)[p].rankAtp == p + 1
    {
      AtpRankIsSortedPosition(profiles, p);
    }
  }

  /** No row of the standings ever shows an up or down arrow, in either tab. */
  lemma StandingsShowNoTrend(profiles: seq<Profile>, kind: RankingKind, p: int)
    requires 0 <= p < |profiles|
    ensures var row := PlayersByRanking(Standings(profiles), kind)[p];
      && RankChange(p + 1, row.previousEloRank) == Unchanged
      && RankChange(p + 1, row.previousAtpRank) == Unchanged
  {
    var r := Standings(profiles);
    var row := PlayersByRanking(r, kind)[p];
    assert row in multiset(r);
  }
}

=== FILE: seqs.dfy ===
/** Sequence helpers shared by the pages: order-preserving filters, limits, sums and maxima. */
module Seqs {

  function Min(a: int, b: int): int {
    if a <= b then a else b
  }

  /** `s.filter(keep)`: the kept elements, in their original order. */
  function Filter<T(!new)>(s: seq<T>, keep: T -> bool): (r: seq<T>)
    ensures |r| <= |s|
    ensures forall x :: multiset(r)[x] == if keep(x) then multiset(s)[x] else 0
    ensures forall x :: x in r <==> x in s && keep(x)
  {
    if s == [] then []
    else
      assert s == [s[0]] + s[1..];
      (if keep(s[0]) then [s[0]] else []) + Filter(s[1..], keep)
  }

  lemma FilterCons<T(!new)>(x: T, s: seq<T>, keep: T -> bool)
    ensures Filter([x] + s, keep) == (if keep(x) then [x] else []) + Filter(s, keep)
  {
    assert ([x] + s)[1..] == s;
  }

  /** Filtering distributes over concatenation, so it keeps the relative order of what it keeps. */
  lemma {:induction false} FilterConcat<T(!new)>(a: seq<T>, b: seq<T>, keep: T -> bool)
    ensures Filter(a + b, keep) == Filter(a, keep) + Filter(b, keep)
  {
    if a == [] {
      assert a + b == b;
    } else {
      var x, rest := a[0], a[1..];
      assert a == [x] + rest;
      assert a + b == [x] + (rest + b);
      var head := if keep(x) then [x] else [];
      var fr, fb := Filter(rest, keep), Filter(b, keep);
      FilterCons(x, rest, keep);
      FilterCons(x, rest + b, keep);
      FilterConcat(rest, b, keep);
      assert Filter(a + b, keep) == head + (fr + fb);
      assert Filter(a, keep) == head + fr;
      ConcatAssociative(head, fr, fb);
    }
  }

  lemma ConcatAssociative<T>(a: seq<T>, b: seq<T>, c: seq<T>)
    ensures a + (b + c) == (a + b) + c
  {
  }

  /** Filters whose tests agree on the elements give the same result. */
  lemma {:induction false} FilterSameTest<T(!new)>(s: seq<T>, k1: T -> bool, k2: T -> bool)
    requires forall i :: 0 <= i < |s| ==> k1(s[i]) == k2(s[i])
    ensures Filter(s, k1) == Filter(s, k2)
  {
    if s != [] {
      FilterSameTest(s[1..], k1, k2);
    }
  }

  lemma {:induction false} FilterKeepsAll<T(!new)>(s: seq<T>, keep: T -> bool)
    requires forall i :: 0 <= i < |s| ==> keep(s[i])
    ensures Filter(s, keep) == s
  {
    if s != [] {
      FilterKeepsAll(s[1..], keep);
    }
  }

  lemma {:induction false} FilterKeepsNone<T(!new)>(s: seq<T>, keep: T -> bool)
    requires forall i :: 0 <= i < |s| ==> !keep(s[i])
    ensures Filter(s, keep) == []
  {
    if s != [] {
      FilterKeepsNone(s[1..], keep);
    }
  }

  /** A weaker test keeps at least as many elements. */
  lemma {:induction false} FilterLengthMonotone<T(!new)>(s: seq<T>, k1: T -> bool, k2: T -> bool)
    requires forall i :: 0 <= i < |s| ==> k1(s[i]) ==> k2(s[i])
    ensures |Filter(s, k1)| <= |Filter(s, k2)|
  {
    if s != [] {
      FilterLengthMonotone(s[1..], k1, k2);
    }
  }

  /** `s` is ordered by `key`, smallest first. */
  predicate Ordered<T>(s: seq<T>, key: T -> int) {
    forall p, q :: 0 <= p < q < |s| ==> key(s[p]) <= key(s[q])
  }

  lemma OrderedCons<T>(x: T, t: seq<T>, key: T -> int)
    requires Ordered(t, key)
    requires forall k :: 0 <= k < |t| ==> key(x) <= key(t[k])
    ensures Ordered([x] + t, key)
  {
    var r := [x] + t;
    forall p, q | 0 <= p < q < |r| ensures key(r[p]) <= key(r[q]) {
      assert r[q] == t[q - 1];
      if p > 0 {
        assert r[p] == t[p - 1];
      }
    }
  }

  /** Filtering a list ordered by `key` leaves it ordered. */
  lemma {:induction false} FilterKeepsOrder<T(!new)>(s: seq<T>, keep: T -> bool, key: T -> int)
    requires Ordered(s, key)
    ensures Ordered(Filter(s, keep), key)
  {
    if s != [] {
      var tail := Filter(s[1..], keep);
      FilterKeepsOrder(s[1..], keep, key);
      if keep(s[0]) {
        forall k | 0 <= k < |tail| ensures key(s[0]) <= key(tail[k]) {
          assert tail[k] in s[1..];
        }
        OrderedCons(s[0], tail, key);
      }
    }
  }

  /** `LIMIT n` / `slice(0, n)`: the first `n` elements, or all of them when there are fewer. */
  function Take<T>(s: seq<T>, n: nat): (r: seq<T>)
    ensures |r| == Min(n, |s|)
    ensures r <= s
    ensures multiset(r) <= multiset(s)
  {
    if |s| <= n then s
    else
      assert s == s[..n] + s[n..];
      s[..n]
  }

  /** `s.reduce((sum, x) => sum + x, 0)`. */
  function Sum(s: seq<int>): int {
    if s == [] then 0 else s[0] + Sum(s[1..])
  }

  lemma {:induction false} SumConcat(a: seq<int>, b: seq<int>)
    ensures Sum(a + b) == Sum(a) + Sum(b)
  {
    if a == [] {
      assert a + b == b;
    } else {
      assert (a + b)[1..] == a[1..] + b;
      SumConcat(a[1..], b);
    }
  }

  /** A sum of non-negative counts is at least each of them. */
  lemma {:induction false} SumBoundsEach(s: seq<int>, i: int)
    requires forall k :: 0 <= k < |s| ==> s[k] >= 0
    requires 0 <= i < |s|
    ensures 0 <= s[i] <= Sum(s)
  {
    SumNonNegative(s[1..]);
    if i > 0 {
      SumBoundsEach(s[1..], i - 1);
    }
  }

  lemma {:induction false} SumNonNegative(s: seq<int>)
    requires forall k :: 0 <= k < |s| ==> s[k] >= 0
    ensures Sum(s) >= 0
  {
    if s != [] {
      SumNonNegative(s[1..]);
    }
  }

  /** `Math.max(...s)` on a non-empty list. */
  function Max(s: seq<int>): (m: int)
    requires |s| > 0
    ensures m in s
    ensures forall k :: 0 <= k < |s| ==> s[k] <= m
  {
    if |s| == 1 then s[0]
    else
      var rest := Max(s[1..]);
      assert forall k :: 1 <= k < |s| ==> s[k] == s[1..][k - 1];
      if s[0] >= rest then s[0] else rest
  }

  /** The position of `x` in `s` (its first occurrence). */
  function IndexOf<T(==)>(s: seq<T>, x: T): (p: nat)
    requires x in s
    ensures p < |s| && s[p] == x
    ensures forall k :: 0 <= k < p ==> s[k] != x
  {
    if s[0] == x then 0 else 1 + IndexOf(s[1..], x)
  }
}

=== FILE: stable_sort.dfy ===
/** A stable comparison sort, modelled on index sequences.

    `Array.prototype.sort` is stable, and a stable sort by an integer key has exactly one
    possible result (lemma `StableSortUnique`), so the insertion sort below stands for the
    engine's algorithm without loss. Sorting indices rather than elements lets stability be
    stated even when two elements are equal. */
module StableSort {
  import opened Seqs

  datatype Order = Ascending | Descending

  /** Key `a` goes strictly before key `b` in order `o`. */
  predicate Before(o: Order, a: int, b: int) {
    match o
    case Ascending => a < b
    case Descending => a > b
  }

  /** Index `j` goes before index `i` in the stable sort of `keys`:
      its key is strictly better, or the keys tie and `j` came first. */
  predicate Precedes(keys: seq<int>, o: Order, j: int, i: int)
    requires 0 <= j < |keys| && 0 <= i < |keys|
  {
    Before(o, keys[j], keys[i]) || (keys[j] == keys[i] && j < i)
  }

  predicate ValidIndices(n: int, s: seq<int>) {
    forall k :: 0 <= k < |s| ==> 0 <= s[k] < n
  }

  /** `s` lists indices of `keys` in stable sorted order. */
  predicate StablySorted(keys: seq<int>, o: Order, s: seq<int>) {
    && ValidIndices(|keys|, s)
    && forall p, q :: 0 <= p < q < |s| ==> Precedes(keys, o, s[p], s[q])
  }

  /** `s` holds each of 0..n-1 and nothing else. */
  predicate IsPermutation(s: seq<int>, n: int) {
    && |s| == n
    && ValidIndices(n, s)
    && forall i :: 0 <= i < n ==> i in s
  }

  /** `Precedes` is a strict total order on the indices. */
  lemma PrecedesStrictTotal(keys: seq<int>, o: Order, i: int, j: int, k: int)
    requires 0 <= i < |keys| && 0 <= j < |keys| && 0 <= k < |keys|
    ensures !Precedes(keys, o, i, i)
    ensures i != j ==> Precedes(keys, o, i, j) || Precedes(keys, o, j, i)
    ensures Precedes(keys, o, i, j) ==> !Precedes(keys, o, j, i)
    ensures Precedes(keys, o, i, j) && Precedes(keys, o, j, k) ==> Precedes(keys, o, i, k)
  {
  }

  /** Inserts index `x` before the first index it precedes. */
  function Insert(keys: seq<int>, o: Order, s: seq<int>, x: int): (r: seq<int>)
    requires ValidIndices(|keys|, s) && 0 <= x < |keys|
    ensures ValidIndices(|keys|, r)
    ensures |r| == |s| + 1
    ensures multiset(r) == multiset(s) + multiset{x}
    ensures forall y :: y in r <==> y in s || y == x
  {
    if s == [] then [x]
    else if Precedes(keys, o, x, s[0]) then [x] + s
    else
      assert s == [s[0]] + s[1..];
      [s[0]] + Insert(keys, o, s[1..], x)
  }

  /** Inserting a new index into a stably sorted sequence keeps it stably sorted. */
  lemma {:induction false} InsertSorted(keys: seq<int>, o: Order, s: seq<int>, x: int)
    requires StablySorted(keys, o, s)
    requires 0 <= x < |keys| && x !in s
    ensures StablySorted(keys, o, Insert(keys, o, s, x))
  {
    if s == [] {
    } else if Precedes(keys, o, x, s[0]) {
      forall k | 0 < k < |s| ensures Precedes(keys, o, x, s[k]) {
        PrecedesStrictTotal(keys, o, x, s[0], s[k]);
      }
    } else {
      PrecedesStrictTotal(keys, o, x, s[0], x);
      InsertSorted(keys, o, s[1..], x);
      var rest := Insert(keys, o, s[1..], x);
      forall k | 0 <= k < |rest| ensures Precedes(keys, o, s[0], rest[k]) {
        assert rest[k] in multiset(rest);
        if rest[k] != x {
          var m := IndexOf(s[1..], rest[k]);
          assert s[1..][m] == s[m + 1];
        }
      }
    }
  }

  /** The stable sort of the first `k` indices of `keys`. */
  function SortPrefix(keys: seq<int>, o: Order, k: nat): (r: seq<int>)
    requires k <= |keys|
    ensures ValidIndices(|keys|, r)
    ensures |r| == k
    ensures forall y :: y in r <==> 0 <= y < k
  {
    if k == 0 then []
    else
      var t := SortPrefix(keys, o, k - 1);
      Insert(keys, o, t, k - 1)
  }

  lemma {:induction false} SortPrefixSorted(keys: seq<int>, o: Order, k: nat)
    requires k <= |keys|
    ensures StablySorted(keys, o, SortPrefix(keys, o, k))
  {
    if k > 0 {
      SortPrefixSorted(keys, o, k - 1);
      InsertSorted(keys, o, SortPrefix(keys, o, k - 1), k - 1);
    }
  }

  /** The indices of `keys`, stably sorted by key in order `o`. */
  function SortIndices(keys: seq<int>, o: Order): (r: seq<int>)
    ensures StablySorted(keys, o, r)
    ensures IsPermutation(r, |keys|)
  {
    SortPrefixSorted(keys, o, |keys|);
    SortPrefix(keys, o, |keys|)
  }

  /** How many indices precede `i`: the 0-based position `i` must take in any stable sort. */
  function PrecedingCount(keys: seq<int>, o: Order, i: int): nat
    requires 0 <= i < |keys|
  {
    |set j | 0 <= j < |keys| && Precedes(keys, o, j, i)|
  }

  /** A duplicate-free prefix of length `p` has `p` distinct elements. */
  lemma {:induction false} DistinctPrefixCard(s: seq<int>, p: nat)
    requires p <= |s|
    requires forall a, b :: 0 <= a < b < |s| ==> s[a] != s[b]
    ensures |set q | 0 <= q < p :: s[q]| == p
  {
    if p > 0 {
      DistinctPrefixCard(s, p - 1);
      var prev := set q | 0 <= q < p - 1 :: s[q];
      assert (set q | 0 <= q < p :: s[q]) == prev + {s[p - 1]};
      assert s[p - 1] !in prev;
    }
  }

  /** In a stably sorted permutation, the index at position `p` is preceded by exactly `p` indices. */
  lemma PositionIsPrecedingCount(keys: seq<int>, o: Order, s: seq<int>, p: int)
    requires StablySorted(keys, o, s) && IsPermutation(s, |keys|)
    requires 0 <= p < |s|
    ensures PrecedingCount(keys, o, s[p]) == p
  {
    var before := set j | 0 <= j < |keys| && Precedes(keys, o, j, s[p]);
    var prefix := set q | 0 <= q < p :: s[q];
    forall j | j in before ensures j in prefix {
      var q := IndexOf(s, j);
      PrecedesStrictTotal(keys, o, j, s[p], j);
      assert q < p;
    }
    forall j | j in prefix ensures j in before {
      var q :| 0 <= q < p && s[q] == j;
      assert Precedes(keys, o, s[q], s[p]);
    }
    assert before == prefix;
    forall a, b | 0 <= a < b < |s| ensures s[a] != s[b] {
      PrecedesStrictTotal(keys, o, s[a], s[b], s[b]);
    }
    DistinctPrefixCard(s, p);
  }

  /** A stable sort by key has exactly one result. */
  lemma StableSortUnique(keys: seq<int>, o: Order, s: seq<int>, t: seq<int>)
    requires StablySorted(keys, o, s) && IsPermutation(s, |keys|)
    requires StablySorted(keys, o, t) && IsPermutation(t, |keys|)
    ensures s == t
  {
    forall p | 0 <= p < |s| ensures s[p] == t[p] {
      var q := IndexOf(t, s[p]);
      PositionIsPrecedingCount(keys, o, s, p);
      PositionIsPrecedingCount(keys, o, t, q);
    }
  }

  /** Positions in a stably sorted sequence follow `Precedes` exactly. */
  lemma PositionsFollowPrecedes(keys: seq<int>, o: Order, s: seq<int>, p: int, q: int)
    requires StablySorted(keys, o, s)
    requires 0 <= p < |s| && 0 <= q < |s|
    ensures Precedes(keys, o, s[p], s[q]) <==> p < q
  {
    PrecedesStrictTotal(keys, o, s[p], s[q], s[q]);
    if q < p {
      assert Precedes(keys, o, s[q], s[p]);
    }
  }

  /** A stably sorted index sequence lists no index twice. */
  lemma StablySortedDistinct(keys: seq<int>, o: Order, s: seq<int>, p: int, q: int)
    requires StablySorted(keys, o, s)
    requires 0 <= p < |s| && 0 <= q < |s| && p != q
    ensures s[p] != s[q]
  {
    PositionsFollowPrecedes(keys, o, s, p, q);
    PositionsFollowPrecedes(keys, o, s, q, p);
  }

  /** `s` rearranged by the index sequence `idx`. */
  function Apply<T>(s: seq<T>, idx: seq<int>): (r: seq<T>)
    requires ValidIndices(|s|, idx)
    ensures |r| == |idx|
    ensures forall p :: 0 <= p < |idx| ==> r[p] == s[idx[p]]
  {
    seq(|idx|, p requires 0 <= p < |idx| => s[idx[p]])
  }

  lemma ApplyCons<T>(s: seq<T>, x: int, t: seq<int>)
    requires 0 <= x < |s| && ValidIndices(|s|, t)
    ensures Apply(s, [x] + t) == [s[x]] + Apply(s, t)
  {
  }

  lemma {:induction false} ApplyInsert<T>(s: seq<T>, keys: seq<int>, o: Order, t: seq<int>, x: int)
    requires |keys| == |s|
    requires ValidIndices(|keys|, t) && 0 <= x < |keys|
    ensures multiset(Apply(s, Insert(keys, o, t, x))) == multiset(Apply(s, t)) + multiset{s[x]}
  {
    if t == [] {
      assert Apply(s, [x]) == [s[x]];
    } else if Precedes(keys, o, x, t[0]) {
      ApplyCons(s, x, t);
    } else {
      ApplyInsert(s, keys, o, t[1..], x);
      assert t == [t[0]] + t[1..];
      ApplyCons(s, t[0], t[1..]);
      ApplyCons(s, t[0], Insert(keys, o, t[1..], x));
    }
  }

  lemma MultisetSnoc<T>(s: seq<T>, k: int)
    requires 0 < k <= |s|
    ensures multiset(s[..k]) == multiset(s[..k - 1]) + multiset{s[k - 1]}
  {
    assert s[..k] == s[..k - 1] + [s[k - 1]];
  }

  /** Inserting index `k - 1` into an arrangement of the first `k - 1` elements arranges the
      first `k`. */
  lemma ApplyInsertSnoc<T>(s: seq<T>, keys: seq<int>, o: Order, t: seq<int>, k: int)
    requires |keys| == |s| && 0 < k <= |s|
    requires ValidIndices(|keys|, t)
    requires multiset(Apply(s, t)) == multiset(s[..k - 1])
    ensures multiset(Apply(s, Insert(keys, o, t, k - 1))) == multiset(s[..k])
  {
    ApplyInsert(s, keys, o, t, k - 1);
    MultisetSnoc(s, k);
  }

  lemma {:induction false} SortPrefixPermutes<T>(s: seq<T>, keys: seq<int>, o: Order, k: nat)
    requires |keys| == |s| && k <= |s|
    ensures multiset(Apply(s, SortPrefix(keys, o, k))) == multiset(s[..k])
  {
    if k > 0 {
      var t := SortPrefix(keys, o, k - 1);
      SortPrefixPermutes(s, keys, o, k - 1);
      ApplyInsertSnoc(s, keys, o, t, k);
    }
  }

  /** The key of every element of `s`. */
  function KeysOf<T>(s: seq<T>, key: T -> int): (keys: seq<int>)
    ensures |keys| == |s|
    ensures forall i :: 0 <= i < |s| ==> keys[i] == key(s[i])
  {
    seq(|s|, i requires 0 <= i < |s| => key(s[i]))
  }

  /** `[...s].sort((a, b) => key(a) - key(b))` for `Ascending`, `key(b) - key(a)` for `Descending`. */
  function SortBy<T>(s: seq<T>, key: T -> int, o: Order): (r: seq<T>)
    ensures |r| == |s|
    ensures multiset(r) == multiset(s)
    ensures forall p, q :: 0 <= p < q < |r| ==> !Before(o, key(r[q]), key(r[p]))
  {
    var keys := KeysOf(s, key);
    var idx := SortIndices(keys, o);
    var r := Apply(s, idx);
    SortPrefixPermutes(s, keys, o, |s|);
    assert s[..|s|] == s;
    r
  }

  /** Elements with equal keys keep their original relative order. */
  lemma SortByStable<T>(s: seq<T>, key: T -> int, o: Order, p: int, q: int)
    requires 0 <= p < q < |s|
    requires key(SortBy(s, key, o)[p]) == key(SortBy(s, key, o)[q])
    ensures var idx := SortIndices(KeysOf(s, key), o);
      && SortBy(s, key, o)[p] == s[idx[p]]
      && SortBy(s, key, o)[q] == s[idx[q]]
      && idx[p] < idx[q]
  {
  }

  /** Sorting a sequence that is already in order (ties included) changes nothing. */
  lemma SortedInputIsFixed<T>(s: seq<T>, key: T -> int, o: Order)
    requires forall p, q :: 0 <= p < q < |s| ==> !Before(o, key(s[q]), key(s[p]))
    ensures SortBy(s, key, o) == s
  {
    var keys := KeysOf(s, key);
    var id := seq(|s|, i => i);
    assert StablySorted(keys, o, id);
    forall i | 0 <= i < |s| ensures i in id {
      assert id[i] == i;
    }
    StableSortUnique(keys, o, id, SortIndices(keys, o));
  }
}

=== FILE: tournaments.dfy ===
/** The tournaments list (app/tournaments/page.tsx): the status filter on the query, the
    participant count, and the status badge and register link of each card. */
module Tournaments {
  import opened Wrappers
  import opened Seqs
  import Palette
  import Calendar

  /** The statuses the page knows; the column itself may hold any string. */
  const Upcoming := "upcoming"
  const RegistrationOpen := "registration_open"
  const InProgress := "in_progress"
  const Completed := "completed"

  /** A `tournaments` row with its embedded `tournament_participants(count)` aggregate, which
      arrives as a list of rows each holding a nullable count, or not at all. */
  datatype TournamentRow = TournamentRow(id: string, name: string, status: string,
    maxParticipants: int, participantCounts: Option<seq<Option<int>>>)

  /** `tournament.tournament_participants?.[0]?.count || 0`. */
  function CurrentParticipants(t: TournamentRow): (n: int)
    ensures t.participantCounts.None? || t.participantCounts.value == [] ==> n == 0
    ensures t.participantCounts.Some? && t.participantCounts.value != [] ==>
      n == OrDefault(t.participantCounts.value[0], 0)
    ensures n == 0 || (t.participantCounts.Some? && t.participantCounts.value != []
      && t.participantCounts.value[0] == Some(n))
  {
    if t.participantCounts.Some? && t.participantCounts.value != [] then
      OrDefault(t.participantCounts.value[0], 0)
    else 0
  }

  /** The filter buttons. */
  datatype StatusFilter = All | Only(status: string)

  function Matching(filter: StatusFilter): TournamentRow -> bool {
    (t: TournamentRow) => filter.All? || t.status == filter.status
  }

  /** The query result under a filter; rows arrive in the backend's `start_date` order, which is
      the input order here. */
  function Listed(rows: seq<TournamentRow>, filter: StatusFilter): (r: seq<TournamentRow>)
    ensures filter.All? ==> r == rows
    ensures filter.Only? ==> forall t :: t in r <==> t in rows && t.status == filter.status
    ensures filter.Only? ==>
      forall t :: multiset(r)[t] == if t.status == filter.status then multiset(rows)[t] else 0
    ensures multiset(r) <= multiset(rows)
    ensures |r| <= |rows|
  {
    if filter.All? then rows
    else
      var r := Filter(rows, Matching(filter));
      assert forall t :: t in r <==> t in rows && Matching(filter)(t);
      r
  }

  /** The backend orders by `start_date` under every filter: a status filter keeps the rows in
      the order of the unfiltered list. `key` stands for the start date. */
  lemma ListedKeepsOrder(rows: seq<TournamentRow>, filter: StatusFilter, key: TournamentRow -> int)
    requires Ordered(rows, key)
    ensures Ordered(Listed(rows, filter), key)
  {
    if filter.Only? {
      FilterKeepsOrder(rows, Matching(filter), key);
    }
  }

  /** Filtering by a status and filtering again by the same status changes nothing. */
  lemma ListedIdempotent(rows: seq<TournamentRow>, status: string)
    ensures Listed(Listed(rows, Only(status)), Only(status)) == Listed(rows, Only(status))
  {
    var once := Listed(rows, Only(status));
    FilterKeepsAll(once, Matching(Only(status)));
  }

  /** `getStatusText`: the four known statuses get French labels, anything else is shown as is. */
  function StatusText(status: string): (text: string)
    ensures status == Upcoming ==> text == "À venir"
    ensures status == RegistrationOpen ==> text == "Inscriptions ouvertes"
    ensures status == InProgress ==> text == "En cours"
    ensures status == Completed ==> text == "Terminé"
    ensures status !in {Upcoming, RegistrationOpen, InProgress, Completed} ==> text == status
  {
    if status == Upcoming then "À venir"
    else if status == RegistrationOpen then "Inscriptions ouvertes"
    else if status == InProgress then "En cours"
    else if status == Completed then "Terminé"
    else status
  }

  /** The four labels are distinct, so the label tells the known statuses apart. */
  lemma StatusTextDistinguishesKnownStatuses(a: string, b: string)
    requires a in {Upcoming, RegistrationOpen, InProgress, Completed}
    requires b in {Upcoming, RegistrationOpen, InProgress, Completed}
    requires StatusText(a) == StatusText(b)
    ensures a == b
  {
  }

  /** `getStatusColor`. */
  function StatusColor(status: string): (b: Palette.Badge)
    ensures b == Palette.Blue <==> status == Upcoming
    ensures b == Palette.Green <==> status == RegistrationOpen
    ensures b == Palette.Orange <==> status == InProgress
    ensures b == Palette.Gray <==> status !in {Upcoming, RegistrationOpen, InProgress}
  {
    if status == Upcoming then Palette.Blue
    else if status == RegistrationOpen then Palette.Green
    else if status == InProgress then Palette.Orange
    else if status == Completed then Palette.Gray
    else Palette.Gray
  }

  /** An unknown status gets the same grey badge as a completed tournament. */
  lemma UnknownStatusLooksCompleted(status: string)
    requires status !in {Upcoming, RegistrationOpen, InProgress, Completed}
    ensures StatusColor(status) == StatusColor(Completed)
  {
  }

  /** The calendar colours a tournament exactly as this page does. */
  lemma CalendarAgreesOnColors(status: string)
    ensures Calendar.StatusColor(status, Calendar.TournamentEvent) == StatusColor(status)
  {
  }

  /** The register link is offered exactly for tournaments open for registration. */
  function ShowsRegisterLink(t: TournamentRow): (b: bool)
    ensures b <==> t.status == RegistrationOpen
    ensures b ==> StatusColor(t.status) == Palette.Green
  {
    t.status == RegistrationOpen
  }

  /** Under the "registration_open" filter every listed card has a register link; under the other
      status filters none does. */
  lemma RegisterLinksUnderFilter(rows: seq<TournamentRow>, status: string, t: TournamentRow)
    requires t in Listed(rows, Only(status))
    ensures ShowsRegisterLink(t) <==> status == RegistrationOpen
  {
  }
}

=== FILE: wrappers.dfy ===
/** Nullable values. `None` stands for JavaScript's `null` / `undefined`. */
module Wrappers {

  datatype Option<+T> = None | Some(value: T)

  /** JavaScript truthiness of a nullable string: `null`, `undefined` and `""` are falsy. */
  predicate TruthyString(s: Option<string>) {
    s.Some? && s.value != ""
  }

  /** `s || ""` on a nullable string. */
  function OrEmpty(s: Option<string>): (r: string)
    ensures TruthyString(s) ==> r == s.value
    ensures !TruthyString(s) ==> r == ""
  {
    if s.Some? then s.value else ""
  }

  /** A character outside the Basic Multilingual Plane, which UTF-16 stores as a surrogate
      pair. */
  predicate Astral(c: char) {
    c as int > 0xFFFF
  }

  /** JavaScript's `s.length`: the number of UTF-16 code units, two for an astral character and
      one for any other. */
  function JsLength(s: string): (n: nat)
    ensures |s| <= n <= 2 * |s|
    ensures (forall i :: 0 <= i < |s| ==> !Astral(s[i])) ==> n == |s|
  {
    if s == [] then 0 else (if Astral(s[0]) then 2 else 1) + JsLength(s[1..])
  }

  /** The length of a concatenation is the sum of the lengths. */
  lemma {:induction false} JsLengthConcat(a: string, b: string)
    ensures JsLength(a + b) == JsLength(a) + JsLength(b)
    decreases |a|
  {
    if a == [] {
      assert a + b == b;
    } else {
      assert (a + b)[1..] == a[1..] + b;
      JsLengthConcat(a[1..], b);
    }
  }

  /** A text is shorter than two code units exactly when it is empty or a single character of
      the Basic Multilingual Plane: one emoji already counts as two. */
  lemma JsLengthBelowTwo(s: string)
    ensures JsLength(s) < 2 <==> s == [] || (|s| == 1 && !Astral(s[0]))
  {
    if |s| >= 2 {
      assert JsLength(s) >= |s|;
    } else if |s| == 1 {
      assert s[1..] == [];
    }
  }

  /** `s || fallback` on a nullable string. */
  function OrElse(s: Option<string>, fallback: string): (r: string)
    ensures TruthyString(s) ==> r == s.value
    ensures !TruthyString(s) ==> r == fallback
  {
    if TruthyString(s) then s.value else fallback
  }

  /** How a template literal prints a nullable string: `null` prints as "null". */
  function Interpolated(s: Option<string>): (text: string)
    ensures s.Some? ==> text == s.value
    ensures s.None? ==> text == "null"
  {
    if s.Some? then s.value else "null"
  }

  /** `s || null`: the empty string is stored as `null`. */
  function NullIfEmpty(s: string): (r: Option<string>)
    ensures r.None? <==> s == ""
    ensures r.Some? ==> r.value == s
  {
    if s == "" then None else Some(s)
  }

  /** `x || d` on a nullable number: `null`, `undefined` and `0` all give the default. */
  function OrDefault(x: Option<int>, d: int): (r: int)
    ensures x.Some? && x.value != 0 ==> r == x.value
    ensures x.None? || x.value == 0 ==> r == d
  {
    if x.Some? && x.value != 0 then x.value else d
  }

  /** Reading a stored nullable string into a form field and saving it back is the identity,
      except for a stored `""`, which comes back as `null`. */
  lemma NullIfEmptyOrEmptyRoundTrip(s: string, o: Option<string>)
    ensures OrEmpty(NullIfEmpty(s)) == s
    ensures o != Some("") ==> NullIfEmpty(OrEmpty(o)) == o
  {
  }
}
